=== FILE: README.md ===
# Identity core of the distributed ERP system, modelled in Dafny

This project models the decision logic of two cooperating Go services. The **auth
service** issues bearer tokens on signup and login. The **user service**'s router
puts a JWT gate in front of a profile handler. The service also keeps a soft-delete
users table and a hard-delete roles table.

Everything is pure functions over immutable values:

- **Tables are values.** The auth service's users table is a map keyed by email.
  The user-service `users` and `roles` tables are sequences of rows in ascending id
  order, plus the id sequence's next value.
- **Collaborators are parameters.** bcrypt (`HashPassword`, `CheckPassword`), JWT
  signing (`GenerateJWT`) and JWT parsing (`jwt.Parse` with the secret) are
  function-typed parameters. So are the fresh UUID, the clock readings (the
  repositories' `time.Now()`, the database's `NOW()`, and the two readings `GenerateJWT`
  takes for `exp` and `iat`) and the failures the database may report.
- **Outcomes are tagged values.** Every operation returns a tagged outcome: `Result`,
  the gate's `Decision`, or an HTTP `Response`.

Files and modules follow the source:

| file | module | source |
|---|---|---|
| base.dfy | `Base` | shared `Option`, `Result`, `Fault` (a Go `error`), `Time`, `int64` |
| models.dfy | `Models` | `models.User` (string ids), `domain.User` (int64 ids), `domain.Role` |
| http.dfy | `Http` | status codes and JSON bodies |
| jwt_middleware.dfy | `JwtMiddleware` | pkg/middlewares/jwt_middleware.go |
| auth_repository.dfy | `AuthRepository` | services/auth-service/internal/repository/auth_repository.go |
| auth_service.dfy | `AuthService` | services/auth-service/internal/services/auth_service.go |
| auth_handler.dfy | `AuthHandler` | services/auth-service/internal/handlers/auth_handler.go |
| user_repo.dfy | `UserRepository` | services/user-service/internal/repository/user_repo.go |
| role_repo.dfy | `RoleRepository` | services/user-service/internal/repository/role_repo.go |
| user_service.dfy | `UserService` | services/user-service/internal/services/user_service.go |
| user_handler.dfy | `ProfileHandler` | services/user-service/internal/api/http/handlers/user_handler.go and router.go |

Facts the model pins down:

- **The gate forwards without a `user_id`.** A validated token with no string
  `user_id` claim is still forwarded. The profile handler then answers 401
  "Unauthenticated".
- **Minted ids never parse.** The auth service mints tokens for UUID strings. The
  profile path reads `user_id` as a base-10 int64, so a valid auth-issued token always
  ends in a 500 there.
- **Signup ignores a failed lookup.** It then proceeds as if the email were free.
- **Login never reads `IsActive`.** A user whose flag is false logs in like any other.
- **Soft-deleted rows stay visible to the auth service.** Its lookup has no `deleted_at`
  filter. Its insert also stamps `deleted_at = NOW()`, so every row it writes would be
  "deleted" to a reader that filters on `deleted_at IS NULL`.

Several lines do not compile, and the model reads them as their evident intent:

- **Compile defects in the user service.** The user service's `user_service.go`
  declares `package service`, but the file is imported as `services`. The profile
  handler calls `GetByID` on the service, but the method is `GetProfile`. The handler
  also clears `user.password`, but the field is `Password`.
- **The profile route is never served.** The user service's `cmd/main.go` builds only
  the two repositories and returns. It never builds a `UserService`, a handler or a
  Fiber app, and never calls `RegisterRoutes`. `ProfileHandler.Route` is the
  composition that `router.go` defines, not something the program serves as written.
- **Mismatched model package in the auth service.** The auth service imports
  `internal/models`, but its repository uses `pkg/models`. The model uses the one
  `AuthUser` record.

## Model

| member | source | states |
|---|---|---|
| JwtMiddleware.Split | pkg/middlewares/jwt_middleware.go:17 | `strings.Split(h, " ")` yields one more part than there are spaces, no part contains a space, and joining the parts with single spaces gives the header back |
| JwtMiddleware.SplitJoin | pkg/middlewares/jwt_middleware.go:17 | splitting is the only decomposition into space-free parts: splitting a single-space join of such parts returns exactly those parts |
| JwtMiddleware.ExtractToken | pkg/middlewares/jwt_middleware.go:12-22 | an empty header, and only an empty header, yields 401 "Missing authorization header"; a header with zero or several spaces yields 401 "Invalid authorization header"; an accepted header is `<bearer scheme> <token>` and the result is exactly the token |
| JwtMiddleware.ExtractTokenAccepts | pkg/middlewares/jwt_middleware.go:17-22 | every header `<scheme> <token>` whose scheme lower-cases to "bearer" and whose token has no space passes the header checks and yields that token |
| JwtMiddleware.UserIdClaim | pkg/middlewares/jwt_middleware.go:32-35 | a `user_id` is attached iff the claims hold a string `user_id`, and it equals that claim |
| JwtMiddleware.Decide | pkg/middlewares/jwt_middleware.go:12-37 | every halt is a 401; a request is forwarded iff the header checks pass and the library reports the token parsed and valid; a header that fails the checks halts with exactly the header check's own response; after passing them, every halt says "Invalid or expired token"; the attached id is the string claim, if any |
| JwtMiddleware.Serve | pkg/middlewares/jwt_middleware.go:11-37 | a halted request is answered by the gate's 401 and never reaches the next handler; a forwarded one is answered by the next handler given the attached id |
| JwtMiddleware.EmptyHeaderHalts | pkg/middlewares/jwt_middleware.go:12-15 | an empty header gives 401 "Missing authorization header" whatever the validator and the next handler |
| JwtMiddleware.DoubleSpaceHalts | pkg/middlewares/jwt_middleware.go:17-20 | a header containing a double space is refused as invalid, whatever scheme and token surround it |
| JwtMiddleware.SchemeIsCaseInsensitive | pkg/middlewares/jwt_middleware.go:18 | "Bearer", "BEARER" and "bEaReR" pass the scheme test; "Basic" and "Bearer:" do not |
| JwtMiddleware.OtherSchemeHalts | pkg/middlewares/jwt_middleware.go:17-20 | a two-part header whose scheme does not lower-case to "bearer" is refused as invalid |
| JwtMiddleware.EmptyTokenReachesValidator | pkg/middlewares/jwt_middleware.go:17-22 | "Bearer " passes the header checks and hands the empty string to validation |
| JwtMiddleware.DecisionDependsOnlyOnToken | pkg/middlewares/jwt_middleware.go:22-25 | the validator is consulted on `parts[1]` alone: validators that agree on it give the same decision |
| JwtMiddleware.ValidTokenForwards | pkg/middlewares/jwt_middleware.go:32-37 | every request whose token validates reaches the next handler, with or without a `user_id` |
| JwtMiddleware.RejectedTokenHalts | pkg/middlewares/jwt_middleware.go:23-30 | a parse error or an invalid token gives 401 "Invalid or expired token" |
| JwtMiddleware.MintedClaims | services/auth-service/internal/utils/jwt.go:10-15 | the minted claims are exactly `user_id`, `exp` and `iat`; `user_id` is the string id, `exp` is the first clock reading plus 24 hours and `iat` the second reading; with ordered readings `exp - iat` is at most 24 hours |
| JwtMiddleware.MintedTokenForwardsUserId | services/auth-service/internal/utils/jwt.go:10-15 | a token carrying minted claims that validates is forwarded with the minted user id |
| AuthRepository.FindUserByEmail | services/auth-service/internal/repository/auth_repository.go:18-28 | the lookup succeeds iff the store does not fail and a row has that email, whatever its `deleted_at`; the user returned is that row with `DeletedAt` left at Go's zero time, since the SELECT reads the other eight columns only; a miss is the no-rows error, never "no user and no error"; a store error is returned unchanged |
| AuthRepository.CreateUser | services/auth-service/internal/repository/auth_repository.go:30-34 | on success exactly one row is added, holding the caller's id, name, email, password, role and active flag, with `NOW()` in `created_at`, `updated_at` and `deleted_at`, and every other row unchanged; a store error is returned unchanged and nothing changes |
| AuthRepository.CreatedRowIsFound | services/auth-service/internal/repository/auth_repository.go:18-34 | a freshly inserted row is found again by its email although its `deleted_at` is set; every stored column but `deleted_at` reads back, and `DeletedAt` stays zero |
| AuthRepository.FindUserByEmailAsWritten | services/auth-service/internal/repository/auth_repository.go:19-26 | as written, every lookup fails, and a matching row fails with the scan-arity error |
| AuthRepository.CreateUserAsWritten | services/auth-service/internal/repository/auth_repository.go:31-33 | as written, the insert always fails and the table is unchanged |
| AuthService.Signup | services/auth-service/internal/services/auth_service.go:26-61 | a user found by the lookup gives "user already exists" and an unchanged table; a token is issued only if the email was free, hashing and insert succeeded, and the token is the one minted for the fresh id, with the new row holding the hash; the table changes only by adding the signup's email |
| AuthService.DuplicateSignupTouchesNothing | services/auth-service/internal/services/auth_service.go:28-31 | a duplicate signup leaves the table unchanged, and its outcome is the same whatever the hash and mint oracles, the clock readings and the fresh id are, so nothing is hashed or minted |
| AuthService.LookupFaultIsIgnored | services/auth-service/internal/services/auth_service.go:28 | for a free email, a lookup that fails with a store error gives exactly the outcome of one that reports no rows |
| AuthService.LookupFaultReachesInsert | services/auth-service/internal/services/auth_service.go:28-52 | when the lookup fails on a registered email, signup is stopped only by the insert's unique violation |
| AuthService.SignupFailures | services/auth-service/internal/services/auth_service.go:34-58 | a hash, insert or mint failure aborts with that error and no token; only a mint failure leaves the new row behind |
| AuthService.SignupSucceeds | services/auth-service/internal/services/auth_service.go:39-60 | a successful signup adds one row under the fresh id, active and holding the hash, keeps ids unique, and returns the token minted for that id |
| AuthService.LoginFrom | services/auth-service/internal/services/auth_service.go:65-80 | a lookup error and a password mismatch both give "invalid credentials"; a token is issued iff the user was found, the password checks and minting succeeds, and it is the token minted for the user's id at the login's clock readings |
| AuthService.Login | services/auth-service/internal/services/auth_service.go:64-80 | a token is issued iff the lookup succeeds, the password checks against the stored hash and minting succeeds; it is minted for the row's id at the login's clock readings; any other error is the mint's own |
| AuthService.LoginHidesWhichCheckFailed | services/auth-service/internal/services/auth_service.go:65-72 | an unknown email and a wrong password give identical outcomes |
| AuthService.LoginIgnoresIsActive | services/auth-service/internal/services/auth_service.go:64-80 | changing a user's `IsActive` flag does not change the outcome of login |
| AuthService.SignupThenLogin | services/auth-service/internal/services/auth_service.go:26-80 | after a successful signup, login with the same password mints for the new id at the login's own clock readings: it returns that token, or fails with that mint's error; nothing ties it to the token signup returned |
| AuthService.LoginAsWritten | services/auth-service/internal/services/auth_service.go:64-72 | over the lookup as written, login always answers "invalid credentials" |
| AuthService.SignupAsWritten | services/auth-service/internal/services/auth_service.go:26-52 | over the lookup and insert as written, signup never writes a row, never issues a token and never reports "user already exists" |
| AuthHandler.Signup | services/auth-service/internal/handlers/auth_handler.go:29-41 | a body that fails to parse gives 400 "invalid request"; the status is 201 or 400; 201 iff the service issued a token, with body `{"token": t}` minted for the fresh id and the new row stored; a registered email gives 400 "user already exists"; every refusal by the service is a 400 whose body is that error's text, so a hash, insert or mint failure carries that failure's own message |
| AuthHandler.Login | services/auth-service/internal/handlers/auth_handler.go:43-54 | a body that fails to parse gives 400 "Invalid request"; otherwise the status is 200 or 401; 200 iff the user exists, the password checks and minting succeeds, with the minted token; an unknown email or failed lookup gives 401 "invalid credentials"; every refusal by the service is a 401 whose body is that error's text, and a failed mint after a good password gives 401 with the mint error's message |
| AuthHandler.ParseFailureMessagesDiffer | services/auth-service/internal/handlers/auth_handler.go:32-46 | the two parse-failure bodies differ (their casing differs) |
| UserRepository.VisibleAscending | services/user-service/internal/repository/user_repo.go:95 | filtering out soft-deleted rows keeps ascending id order |
| UserRepository.Create | services/user-service/internal/repository/user_repo.go:22-46 | on success the new id is the sequence's, not used by any row, `created_at = updated_at = now`, the caller's other fields are returned unchanged, and exactly one live row is appended; a failure adds no row and returns the error; the sequence advances iff the statement drew an id, so a failure raised after the draw still uses the id up; validity is preserved |
| UserRepository.FailedCreateSkipsId | services/user-service/internal/repository/user_repo.go:26-44 | after an insert that fails once it has drawn its id, the next user gets the following id and no row ever carries the lost one |
| UserRepository.GetByEmail | services/user-service/internal/repository/user_repo.go:48-69 | `Ok(None)` iff no live row has the email; a found user is a live row with that email; soft-deleted rows are never returned; store errors pass through |
| UserRepository.GetByID | services/user-service/internal/repository/user_repo.go:71-92 | `Ok(None)` iff no live row has the id; a found user is the live row with that id; store errors pass through |
| UserRepository.Page | services/user-service/internal/repository/user_repo.go:95 | the selected page holds `min(limit, visible - offset)` users, at most `limit`, the i-th being the `(offset+i)`-th live row as read |
| UserRepository.List | services/user-service/internal/repository/user_repo.go:94-117 | a negative limit or offset or a failing query is an error; otherwise the result is a prefix of the page: all of it when iteration drains the rows, and the rows read before an iteration error otherwise, with no error reported |
| UserRepository.BrokenListLooksComplete | services/user-service/internal/repository/user_repo.go:105-116 | an iteration error after `k` rows gives a successful list of `k` users, shorter than the full page, that the caller cannot tell apart from a short table |
| UserRepository.ListShowsOnlyLive | services/user-service/internal/repository/user_repo.go:95 | every listed user is a live row, whether or not iteration was cut short |
| UserRepository.ListAscending | services/user-service/internal/repository/user_repo.go:95 | a page is in strictly ascending id order |
| UserRepository.Update | services/user-service/internal/repository/user_repo.go:119-137 | succeeds iff the store does not fail and a live row has `user.ID`; that row gets the new name, email, password, role and `updated_at`, keeping id, `created_at` and `deleted_at`; every other row is unchanged; otherwise "User not found" or the store error, and no change |
| UserRepository.Delete | services/user-service/internal/repository/user_repo.go:139-157 | succeeds iff a live row has the id; only that row changes, gaining `deleted_at = now`; otherwise "User not found" or the store error, and no change |
| UserRepository.CreateThenGet | services/user-service/internal/repository/user_repo.go:22-92 | a created user is found by its new id with the returned fields |
| UserRepository.UpdateThenGet | services/user-service/internal/repository/user_repo.go:119-137 | after an update the row reads back with the new fields, its old `created_at` and `updated_at = now` |
| UserRepository.UpdateMissingFails | services/user-service/internal/repository/user_repo.go:120-135 | updating a missing or soft-deleted id fails with "User not found" and changes nothing |
| UserRepository.DeleteHides | services/user-service/internal/repository/user_repo.go:139-157 | after a delete, lookup by id gives `Ok(None)`, no page of the list contains the id, and a second delete fails with "User not found" |
| UserRepository.DeleteHidesEmail | services/user-service/internal/repository/user_repo.go:48-69 | after a delete, lookup by email never returns the deleted row |
| RoleRepository.Create | services/user-service/internal/repository/role_repo.go:20-29 | on success the id is the sequence's and unused, `created_at = updated_at = now`, the name is the caller's and the role is appended; a failure adds no row and returns the error; the sequence advances iff the statement drew an id |
| RoleRepository.GetByID | services/user-service/internal/repository/role_repo.go:31-42 | `Ok(None)` iff no role has the id; a found role has it |
| RoleRepository.List | services/user-service/internal/repository/role_repo.go:44-61 | a failing query is an error; otherwise the result is a prefix of the table, in ascending id order on a valid table: every role when iteration drains the rows, and `min(k, roles)` roles with no error after an iteration error at row `k` |
| RoleRepository.Update | services/user-service/internal/repository/role_repo.go:63-79 | succeeds iff a role has the id; only name and `updated_at` of that role change, ids and `created_at` stay; otherwise "role not found" or the store error and no change |
| RoleRepository.Delete | services/user-service/internal/repository/role_repo.go:81-95 | succeeds iff a role has the id; then exactly the roles with other ids remain, in their order; the id sequence is untouched; otherwise "role not found" or the store error, and no change |
| RoleRepository.Without | services/user-service/internal/repository/role_repo.go:82 | the rows left after removing an id are exactly those with other ids, and never more than the table held |
| RoleRepository.WithoutKeepsOrder | services/user-service/internal/repository/role_repo.go:82 | the rows left after removing an id are a subsequence of the table, so their order is kept |
| RoleRepository.WithoutAscending | services/user-service/internal/repository/role_repo.go:82 | removing a role keeps ascending id order |
| RoleRepository.DeleteThenGet | services/user-service/internal/repository/role_repo.go:81-95 | after a delete, lookup gives `Ok(None)` and deleting again fails with "role not found" |
| RoleRepository.CreateThenGet | services/user-service/internal/repository/role_repo.go:20-42 | a created role is found by its new id |
| UserService.ParseInt64 | services/user-service/internal/services/user_service.go:20 | parsing succeeds iff the input is an optional sign and a non-empty run of digits whose signed value fits in an int64, and the result is that value; any other character makes parsing fail |
| UserService.PlusAndLeadingZerosAccepted | services/user-service/internal/services/user_service.go:20 | a leading '+' and a leading zero are accepted and do not change the value |
| UserService.ParseFormatRoundTrip | services/user-service/internal/services/user_service.go:20 | every int64 survives `FormatInt` followed by `ParseInt(…, 10, 64)` |
| UserService.InnerHyphenRejected | services/user-service/internal/services/user_service.go:20 | a '-' anywhere but first makes parsing fail |
| UserService.UuidNeverParses | services/auth-service/internal/services/auth_service.go:40 | no UUID string, the shape of every auth-issued id, parses as an int64 |
| UserService.GetProfile | services/user-service/internal/services/user_service.go:19-30 | an id that does not parse fails without the store being asked; a store error is passed through; a parsed id with a working store always gives `Ok`; `Ok(None)` iff no live row has the parsed id; a found user is that live row as read, password included |
| UserService.GetProfileUsesValue | services/user-service/internal/services/user_service.go:20-24 | two ids with the same parsed value get the same answer |
| UserService.UpdateProfile | services/user-service/internal/services/user_service.go:32-34 | is exactly the repository's Update |
| ProfileHandler.WithoutPassword | services/user-service/internal/api/http/handlers/user_handler.go:32 | the password is empty and every other field unchanged |
| ProfileHandler.GetProfile | services/user-service/internal/api/http/handlers/user_handler.go:19-34 | no `user_id` gives 401 "Unauthenticated", and nothing else gives 401; 500 (body "Unauthenticated") iff the id does not parse or the store fails; 404 "User not found" iff no live row has the id; 200 iff the id parses, the store does not fail and a live row has the id, and then the body is that row with the password cleared |
| ProfileHandler.Route | services/user-service/internal/api/http/router.go:9-14 | a request the gate halts gets the gate's 401; a forwarded one gets the handler's answer for the attached id |
| ProfileHandler.ProfileOnlyBehindGate | services/user-service/internal/api/http/router.go:12-13 | a 200 happens only when the gate forwarded with a `user_id`, and its body has no password |
| ProfileHandler.TokenWithoutUserIdIsUnauthenticated | services/user-service/internal/api/http/handlers/user_handler.go:20-23 | a valid token without a string `user_id` passes the gate and ends in 401 "Unauthenticated" |
| ProfileHandler.AuthIssuedTokenFails | services/user-service/internal/services/user_service.go:20-23 | a valid token minted for a UUID id ends in 500 |
| ProfileHandler.DecimalIdIsServed | services/user-service/internal/api/http/handlers/user_handler.go:19-33 | a valid token whose `user_id` is the decimal form of a live row's id gets 200 with that row, password cleared |

## Left out

- bcrypt, HMAC-SHA-256, base64url and JSON (services/auth-service/internal/utils/hash.go, jwt.go) are not modelled. `HashPassword`, `CheckPassword`, `GenerateJWT` and `jwt.Parse` are function parameters. Each call is one application, so bcrypt's fresh salt per call is not visible.
- The checks inside `jwt.Parse` (signature, algorithm, `exp`) are not modelled. They are the validator's verdict.
- `token.Claims.(jwt.MapClaims)` always succeeds after `jwt.Parse`, so claims are modelled as a map only.
- SQL text, pgx and `database/sql` are not modelled. Tables are values. Any error the store can raise, including a constraint violation, is a `fault` argument, raised before the statement changes anything. `RowsAffected` is not a fault: with `pgx/v5/stdlib` under `database/sql` it never returns an error. The fault message texts (`ErrNoRows`, the duplicate-key, scan-arity, syntax, sequence and negative LIMIT/OFFSET texts) are stand-ins.
- The auth table is keyed by email, so an insert on a registered email fails with the database's unique violation. The users schema is not part of this model.
- `QueryRow` and `LIMIT 1` without `ORDER BY` may return any matching row. The model returns the first in id order.
- The int64 id sequence is modelled up to exhaustion, where `Create` fails.
- Startup, configuration, pool setup and route wiring are not modelled: both `cmd/main.go`, both `config.go`, internal/db/postgres.go and `router.go` beyond the gate-then-handler composition.
- Fiber's body parser is reduced to parsed or not. Responses are a status and a body value.
- `uuid.New()` and every `time.Now()` are parameters. A failed insert says whether it had drawn its id, and a list says after how many rows its iteration failed, if it did.
- A `rows.Scan` failure inside the list loops is not modelled, because the selected columns match their destinations.
- Concurrency, racing signups, `context` deadlines and cancellation are not modelled, and neither is the handler's use of `context.Background()`.
- JwtMiddleware.Lower: lowers ASCII letters only. Go's `strings.ToLower` is Unicode-aware, but that gives the same verdict on the comparison with "bearer".
- UserService.ParseInt64: reports Go's syntax and range errors alike as `None`, because `GetProfile` forwards either unchanged and the handler turns both into a 500.
- The signup body is declared with the service (`AuthService.SignupRequest`), not in the handlers package as in Go, because the handler module builds on the service module. `Signup` receives its four fields whole rather than one by one.
- The `domain.Role` declaration is not part of this model. Its fields are the columns the role repository uses.

## Findings

| source | as written | input that shows it | evidently intended | confidence | as-written member | corrected member |
|---|---|---|---|---|---|---|
| services/auth-service/internal/repository/auth_repository.go:19-23 | the SELECT reads 8 columns but `Scan` receives 9 destinations, so pgx rejects every row found | a users table that already holds ada@x.io with the hash of a password; login with that email and password: "invalid credentials" | scan exactly the selected columns, leaving `DeletedAt` at its zero value | high; not executed | AuthService.LoginAsWritten | AuthService.Login (with AuthService.SignupThenLogin) |
| services/auth-service/internal/repository/auth_repository.go:31 | the INSERT has `%6` where `$6` belongs, so the statement never runs | any signup of a new email: refused with the database's error, no row written | `$6` | high; not executed | AuthService.SignupAsWritten | AuthService.Signup (with AuthService.SignupSucceeds) |

=== FILE: auth_handler.dfy ===
/** The auth endpoints (services/auth-service/internal/handlers/auth_handler.go): each maps
    a request body and the service's outcome to a status and a JSON body. Fiber's body
    parser is reduced to its verdict: `None` when the body did not parse. */
module AuthHandler {
  import opened Base
  import opened Models
  import opened Http
  import opened AuthRepository
  import AuthService

  datatype LoginRequest = LoginRequest(email: string, password: string)

  /** POST /signup. */
  function Signup(db: AuthTable, body: Option<AuthService.SignupRequest>, crypto: AuthService.Crypto, freshId: string, now: Time, at: AuthService.Readings, faults: AuthService.StoreFaults): (r: (AuthTable, Http.Response))
    ensures body.None? ==> r == (db, Response(StatusBadRequest, ErrorBody("invalid request")))
    ensures r.1.status == StatusCreated || r.1.status == StatusBadRequest
    ensures r.1.status == StatusCreated <==> body.Some? && AuthService.Signup(db, body.value, crypto, freshId, now, at, faults).1.Issued?
    ensures r.1.status == StatusCreated ==>
      && r.1.body.TokenBody? && crypto.mint(freshId, at) == Ok(r.1.body.token)
      && body.value.email !in db && body.value.email in r.0 && r.0[body.value.email].id == freshId
    ensures body.Some? && body.value.email in db && faults.lookup.None? ==>
      r == (db, Response(StatusBadRequest, ErrorBody("user already exists")))
    ensures body.Some? && AuthService.Signup(db, body.value, crypto, freshId, now, at, faults).1.Refused? ==>
      r.1 == Response(StatusBadRequest, ErrorBody(AuthService.ErrorText(AuthService.Signup(db, body.value, crypto, freshId, now, at, faults).1.error)))
    ensures body.Some? && r.1.status == StatusBadRequest ==>
      && r.1.body.ErrorBody?
      && (|| r.1.body.message == "user already exists"
          || (crypto.hash(body.value.password).Err? && r.1.body == ErrorBody(crypto.hash(body.value.password).error.message))
          || (faults.create.Some? && r.1.body == ErrorBody(faults.create.value.message))
          || r.1.body == ErrorBody(ErrDuplicateEmail.message)
          || (crypto.mint(freshId, at).Err? && r.1.body == ErrorBody(crypto.mint(freshId, at).error.message)))
  {
    match body
    case None => (db, Response(StatusBadRequest, ErrorBody("invalid request")))
    case Some(req) =>
      var (db', reply) := AuthService.Signup(db, req, crypto, freshId, now, at, faults);
      match reply
      case Refused(e) => (db', Response(StatusBadRequest, ErrorBody(AuthService.ErrorText(e))))
      case Issued(token) => (db', Response(StatusCreated, TokenBody(token)))
  }

  /** POST /login. Its parse-failure message is capitalised, unlike Signup's. */
  function Login(db: AuthTable, body: Option<LoginRequest>, crypto: AuthService.Crypto, at: AuthService.Readings, lookup: Option<Fault>): (r: Http.Response)
    ensures body.None? ==> r == Response(StatusBadRequest, ErrorBody("Invalid request"))
    ensures body.Some? ==> r.status == StatusOK || r.status == StatusUnauthorized
    ensures r.status == StatusOK <==>
      && body.Some? && lookup.None? && body.value.email in db
      && crypto.check(db[body.value.email].password, body.value.password)
      && crypto.mint(db[body.value.email].id, at).Ok?
    ensures r.status == StatusOK ==> r.body == TokenBody(crypto.mint(db[body.value.email].id, at).value)
    ensures body.Some? && (lookup.Some? || body.value.email !in db) ==>
      r == Response(StatusUnauthorized, ErrorBody("invalid credentials"))
    ensures body.Some? && AuthService.Login(db, body.value.email, body.value.password, crypto, at, lookup).Refused? ==>
      r == Response(StatusUnauthorized, ErrorBody(AuthService.ErrorText(AuthService.Login(db, body.value.email, body.value.password, crypto, at, lookup).error)))
    ensures (&& body.Some? && lookup.None? && body.value.email in db
             && crypto.check(db[body.value.email].password, body.value.password)
             && crypto.mint(db[body.value.email].id, at).Err?) ==>
      r == Response(StatusUnauthorized, ErrorBody(crypto.mint(db[body.value.email].id, at).error.message))
    ensures body.Some? && r.status == StatusUnauthorized ==>
      || r.body == ErrorBody("invalid credentials")
      || (body.value.email in db && crypto.mint(db[body.value.email].id, at).Err?
          && r.body == ErrorBody(crypto.mint(db[body.value.email].id, at).error.message))
  {
    match body
    case None => Response(StatusBadRequest, ErrorBody("Invalid request"))
    case Some(req) =>
      match AuthService.Login(db, req.email, req.password, crypto, at, lookup)
      case Refused(e) => Response(StatusUnauthorized, ErrorBody(AuthService.ErrorText(e)))
      case Issued(token) => Response(StatusOK, TokenBody(token))
  }

  /** The two parse-failure bodies differ only in the case of their first letter. */
  lemma ParseFailureMessagesDiffer(db: AuthTable, crypto: AuthService.Crypto, freshId: string, now: Time, at: AuthService.Readings, faults: AuthService.StoreFaults)
    ensures Signup(db, None, crypto, freshId, now, at, faults).1.body != Login(db, None, crypto, at, faults.lookup).body
  {
    assert "invalid request"[0] != "Invalid request"[0];
  }
}

=== FILE: auth_repository.dfy ===
/** The auth service's view of the users table
    (services/auth-service/internal/repository/auth_repository.go).

    The table is keyed by email, the column the auth service queries on. A store
    failure is an explicit `fault` argument: whatever error the driver would report,
    the repository returns unchanged.

    Two lines of the Go source cannot work as written: the SELECT reads 8 columns
    but scans into 9 destinations, and the INSERT has `%6` where `$6` is meant.
    `FindUserByEmail` and `CreateUser` model the evident intent; the `AsWritten`
    variants below model what the code does. */
module AuthRepository {
  import opened Base
  import opened Models

  type AuthTable = map<string, AuthUser>

  /** Every row sits under its own email. */
  ghost predicate Valid(db: AuthTable)
  {
    forall e :: e in db ==> db[e].email == e
  }

  /** Every id is used by at most one row. */
  ghost predicate IdsUnique(db: AuthTable)
  {
    forall e1, e2 :: e1 in db && e2 in db && db[e1].id == db[e2].id ==> e1 == e2
  }

  /** pgx's `ErrNoRows`. */
  const ErrNoRows: Fault := Fault("no rows in result set")

  /** The database's unique-violation error on `email`. */
  const ErrDuplicateEmail: Fault := Fault("duplicate key value violates unique constraint")

  /** The error pgx raises when a row has fewer columns than `Scan` has destinations. */
  const ErrScanArity: Fault := Fault("number of field descriptions must equal number of destinations, got 8 and 9")

  /** The error PostgreSQL raises for the `%6` in the INSERT. */
  const ErrInsertSyntax: Fault := Fault("syntax error at or near \"%\"")

  /** `FindUserByEmail`: the row with this email, on email alone (there is no
      `deleted_at` filter), or an error; never "no user and no error". The SELECT reads
      eight columns, so the struct's `DeletedAt` keeps Go's zero time. */
  function FindUserByEmail(db: AuthTable, email: string, fault: Option<Fault>): (r: Result<AuthUser, Fault>)
    ensures r.Ok? <==> fault.None? && email in db
    ensures r.Ok? ==> r.value.deletedAt == ZeroTime && r.value.(deletedAt := db[email].deletedAt) == db[email]
    ensures Valid(db) && r.Ok? ==> r.value.email == email
    ensures fault.Some? ==> r == Err(fault.value)
    ensures fault.None? && email !in db ==> r == Err(ErrNoRows)
  {
    if fault.Some? then Err(fault.value)
    else if email !in db then Err(ErrNoRows)
    else Ok(db[email].(deletedAt := ZeroTime))
  }

  /** The row as the INSERT writes it: the caller's six fields, and `NOW()` in all three
      timestamp columns, `deleted_at` included. */
  predicate StoredAs(row: AuthUser, user: AuthUser, now: Time)
  {
    && row.id == user.id && row.name == user.name && row.email == user.email
    && row.password == user.password && row.roleId == user.roleId && row.isActive == user.isActive
    && row.createdAt == now && row.updatedAt == now && row.deletedAt == now
  }

  /** `CreateUser`: inserts the user, or returns the store's error and changes nothing. */
  function CreateUser(db: AuthTable, user: AuthUser, now: Time, fault: Option<Fault>): (r: (AuthTable, Result<(), Fault>))
    ensures r.1.Err? ==> r.0 == db
    ensures r.1.Ok? <==> fault.None? && user.email !in db
    ensures fault.Some? ==> r.1 == Err(fault.value)
    ensures fault.None? && user.email in db ==> r.1 == Err(ErrDuplicateEmail)
    ensures r.1.Ok? ==> r.0.Keys == db.Keys + {user.email} && StoredAs(r.0[user.email], user, now)
    ensures r.1.Ok? ==> forall e :: e in db ==> r.0[e] == db[e]
    ensures Valid(db) ==> Valid(r.0)
  {
    if fault.Some? then (db, Err(fault.value))
    else if user.email in db then (db, Err(ErrDuplicateEmail))
    else (db[user.email := user.(createdAt := now, updatedAt := now, deletedAt := now)], Ok(()))
  }

  /** A stored row is found again by its email although its `deleted_at` is set (the
      INSERT stamps it): the lookup does not filter on it, and reads back every stored
      column but that one. */
  lemma CreatedRowIsFound(db: AuthTable, user: AuthUser, now: Time)
    requires user.email !in db
    ensures var (db', res) := CreateUser(db, user, now, None);
      && res.Ok? && db'[user.email].deletedAt == now
      && FindUserByEmail(db', user.email, None).Ok?
      && StoredAs(FindUserByEmail(db', user.email, None).value.(deletedAt := now), user, now)
      && FindUserByEmail(db', user.email, None).value.deletedAt == ZeroTime
  {
  }

  // ---------------------------------------------------------------------------
  // The code as written

  /** `FindUserByEmail` as written: the SELECT yields 8 columns and `Scan` is given 9
      destinations, so every row that matches is reported as a scan error. */
  function FindUserByEmailAsWritten(db: AuthTable, email: string, fault: Option<Fault>): (r: Result<AuthUser, Fault>)
    ensures r.Err?
    ensures fault.None? && email in db ==> r == Err(ErrScanArity)
  {
    if fault.Some? then Err(fault.value)
    else if email !in db then Err(ErrNoRows)
    else Err(ErrScanArity)
  }

  /** `CreateUser` as written: `%6` is not a placeholder, the statement does not parse,
      and no row is ever inserted. */
  function CreateUserAsWritten(db: AuthTable, user: AuthUser, now: Time, fault: Option<Fault>): (r: (AuthTable, Result<(), Fault>))
    ensures r.0 == db && r.1.Err?
  {
    if fault.Some? then (db, Err(fault.value)) else (db, Err(ErrInsertSyntax))
  }
}

=== FILE: auth_service.dfy ===
/** Signup and login orchestration
    (services/auth-service/internal/services/auth_service.go).

    The collaborators that the Go code calls are parameters: `HashPassword`,
    `CheckPassword` and `GenerateJWT` (with the secret baked in) form the `Crypto`
    record; the UUID drawn for a new user, the instant `NOW()` reads, the two clock
    readings `GenerateJWT` takes and the store failures are plain arguments. */
module AuthService {
  import opened Base
  import opened Models
  import opened AuthRepository

  /** The two `time.Now()` calls `GenerateJWT` makes: the first sets `exp`, the second `iat`. */
  datatype Readings = Readings(forExp: Time, forIat: Time)

  /** `utils.HashPassword`, `utils.CheckPassword(hashed, plain)` and `utils.GenerateJWT(id, secret)`,
      the last given the clock readings it takes; a token depends on them, so two mints for
      the same id at different instants need not agree. */
  datatype Crypto = Crypto(
    hash: string -> Result<string, Fault>,
    check: (string, string) -> bool,
    mint: (string, Readings) -> Result<string, Fault>)

  /** Failures the store may report on the lookup and on the insert. */
  datatype StoreFaults = StoreFaults(lookup: Option<Fault>, create: Option<Fault>)

  /** The service's errors: its own two messages, or an error passed through from a collaborator. */
  datatype AuthError = UserExists | InvalidCredentials | Raised(fault: Fault)

  /** `err.Error()`. */
  function ErrorText(e: AuthError): string
  {
    match e
    case UserExists => "user already exists"
    case InvalidCredentials => "invalid credentials"
    case Raised(f) => f.message
  }

  /** `(token, nil)` or `("", err)`. */
  datatype Reply = Issued(token: string) | Refused(error: AuthError)

  /** The signup body the handler parses. Go declares it in the handlers package and passes
      its four fields to `Signup` one by one; here the service takes the record whole, since
      the handler module builds on this one. */
  datatype SignupRequest = SignupRequest(name: string, email: string, password: string, roleId: string)

  /** The record Signup builds: a fresh id, the verifier, `IsActive = true`, zero timestamps. */
  function NewUser(req: SignupRequest, freshId: string, verifier: string): AuthUser
  {
    AuthUser(freshId, req.name, req.email, verifier, req.roleId, true, ZeroTime, ZeroTime, ZeroTime)
  }

  /** Signup from the hash step on: hash, build the record, create, mint. */
  function SignupAfterLookup(db: AuthTable, req: SignupRequest, crypto: Crypto, freshId: string, now: Time, at: Readings, createFault: Option<Fault>): (r: (AuthTable, Reply))
  {
    match crypto.hash(req.password)
    case Err(f) => (db, Refused(Raised(f)))
    case Ok(verifier) =>
      var (db', created) := CreateUser(db, NewUser(req, freshId, verifier), now, createFault);
      if created.Err? then (db', Refused(Raised(created.error)))
      else
        match crypto.mint(freshId, at)
        case Err(f) => (db', Refused(Raised(f)))
        case Ok(token) => (db', Issued(token))
  }

  /** `Signup`: the lookup's error is discarded, so only a found user stops it early. */
  function Signup(db: AuthTable, req: SignupRequest, crypto: Crypto, freshId: string, now: Time, at: Readings, faults: StoreFaults): (r: (AuthTable, Reply))
    ensures FindUserByEmail(db, req.email, faults.lookup).Ok? ==> r == (db, Refused(UserExists))
    ensures r.1.Issued? ==>
      && req.email !in db && faults.create.None?
      && crypto.hash(req.password).Ok?
      && crypto.mint(freshId, at) == Ok(r.1.token)
      && r.0.Keys == db.Keys + {req.email}
      && StoredAs(r.0[req.email], NewUser(req, freshId, crypto.hash(req.password).value), now)
    ensures r.0 != db ==> req.email !in db && req.email in r.0 && r.0 == db[req.email := r.0[req.email]]
    ensures Valid(db) ==> Valid(r.0)
  {
    if FindUserByEmail(db, req.email, faults.lookup).Ok? then (db, Refused(UserExists))
    else SignupAfterLookup(db, req, crypto, freshId, now, at, faults.create)
  }

  /** A duplicate signup hashes nothing, mints nothing and writes nothing: its outcome
      is the same whatever the crypto collaborators do. */
  lemma DuplicateSignupTouchesNothing(db: AuthTable, req: SignupRequest, c1: Crypto, c2: Crypto, id1: string, id2: string, now: Time, at1: Readings, at2: Readings, create: Option<Fault>)
    requires req.email in db
    ensures Signup(db, req, c1, id1, now, at1, StoreFaults(None, create)) == (db, Refused(UserExists))
    ensures Signup(db, req, c1, id1, now, at1, StoreFaults(None, create)) == Signup(db, req, c2, id2, now, at2, StoreFaults(None, create))
  {
  }

  /** A failed lookup is treated exactly like a missing user. */
  lemma LookupFaultIsIgnored(db: AuthTable, req: SignupRequest, crypto: Crypto, freshId: string, now: Time, at: Readings, f: Fault, create: Option<Fault>)
    requires req.email !in db
    ensures Signup(db, req, crypto, freshId, now, at, StoreFaults(Some(f), create))
         == Signup(db, req, crypto, freshId, now, at, StoreFaults(None, create))
  {
  }

  /** When the lookup fails on an existing email, Signup goes on to hash and is stopped
      only by the insert's unique violation. */
  lemma LookupFaultReachesInsert(db: AuthTable, req: SignupRequest, crypto: Crypto, freshId: string, now: Time, at: Readings, f: Fault)
    requires req.email in db && crypto.hash(req.password).Ok?
    ensures Signup(db, req, crypto, freshId, now, at, StoreFaults(Some(f), None)) == (db, Refused(Raised(ErrDuplicateEmail)))
  {
  }

  /** Each failing step aborts Signup with that step's own error and no token; only a
      mint failure leaves the new row behind. */
  lemma SignupFailures(db: AuthTable, req: SignupRequest, crypto: Crypto, freshId: string, now: Time, at: Readings, faults: StoreFaults)
    requires !FindUserByEmail(db, req.email, faults.lookup).Ok?
    ensures crypto.hash(req.password).Err? ==>
      Signup(db, req, crypto, freshId, now, at, faults) == (db, Refused(Raised(crypto.hash(req.password).error)))
    ensures crypto.hash(req.password).Ok? && faults.create.Some? ==>
      Signup(db, req, crypto, freshId, now, at, faults) == (db, Refused(Raised(faults.create.value)))
    ensures crypto.hash(req.password).Ok? && faults.create.None? && req.email !in db && crypto.mint(freshId, at).Err? ==>
      var (db', reply) := Signup(db, req, crypto, freshId, now, at, faults);
      reply == Refused(Raised(crypto.mint(freshId, at).error)) && req.email in db'
  {
  }

  /** A successful Signup: one new row, under a fresh id, and the token minted for that id. */
  lemma SignupSucceeds(db: AuthTable, req: SignupRequest, crypto: Crypto, freshId: string, now: Time, at: Readings, lookup: Option<Fault>)
    requires req.email !in db
    requires crypto.hash(req.password).Ok? && crypto.mint(freshId, at).Ok?
    requires IdsUnique(db) && forall e :: e in db ==> db[e].id != freshId
    ensures var (db', reply) := Signup(db, req, crypto, freshId, now, at, StoreFaults(lookup, None));
      && reply == Issued(crypto.mint(freshId, at).value)
      && db'.Keys == db.Keys + {req.email}
      && db'[req.email].id == freshId && db'[req.email].isActive
      && db'[req.email].password == crypto.hash(req.password).value
      && IdsUnique(db')
  {
  }

  /** `Login` from the lookup result on: a missing user and a wrong password give the same
      error; `IsActive` is never read. */
  function LoginFrom(found: Result<AuthUser, Fault>, password: string, crypto: Crypto, at: Readings): (r: Reply)
    ensures found.Err? ==> r == Refused(InvalidCredentials)
    ensures found.Ok? && !crypto.check(found.value.password, password) ==> r == Refused(InvalidCredentials)
    ensures r.Issued? <==>
      found.Ok? && crypto.check(found.value.password, password) && crypto.mint(found.value.id, at).Ok?
    ensures r.Issued? ==> r.token == crypto.mint(found.value.id, at).value
  {
    if found.Err? then Refused(InvalidCredentials)
    else if !crypto.check(found.value.password, password) then Refused(InvalidCredentials)
    else
      match crypto.mint(found.value.id, at)
      case Err(f) => Refused(Raised(f))
      case Ok(token) => Issued(token)
  }

  /** `Login`. It only reads the table. */
  function Login(db: AuthTable, email: string, password: string, crypto: Crypto, at: Readings, lookup: Option<Fault>): (r: Reply)
    ensures r.Issued? <==>
      lookup.None? && email in db && crypto.check(db[email].password, password) && crypto.mint(db[email].id, at).Ok?
    ensures r.Issued? ==> r.token == crypto.mint(db[email].id, at).value
    ensures r.Refused? ==>
      || r.error == InvalidCredentials
      || (r.error.Raised? && lookup.None? && email in db && crypto.mint(db[email].id, at) == Err(r.error.fault))
  {
    LoginFrom(FindUserByEmail(db, email, lookup), password, crypto, at)
  }

  /** An unknown email and a wrong password are indistinguishable to the caller. */
  lemma LoginHidesWhichCheckFailed(db: AuthTable, known: string, unknown: string, password: string, crypto: Crypto, at: Readings)
    requires known in db && unknown !in db
    requires !crypto.check(db[known].password, password)
    ensures Login(db, known, password, crypto, at, None) == Login(db, unknown, password, crypto, at, None)
  {
  }

  /** Deactivating a user changes nothing about Login. */
  lemma LoginIgnoresIsActive(db: AuthTable, email: string, password: string, crypto: Crypto, at: Readings, lookup: Option<Fault>, active: bool)
    requires email in db
    ensures Login(db[email := db[email].(isActive := active)], email, password, crypto, at, lookup)
         == Login(db, email, password, crypto, at, lookup)
  {
  }

  /** After a successful Signup, a Login with the same password (as `CheckPassword` confirms
      against the stored verifier) mints a token for the new user's id, at the login's own
      clock readings; when that mint fails, so does the Login, with the mint's error. */
  lemma SignupThenLogin(db: AuthTable, req: SignupRequest, crypto: Crypto, freshId: string, now: Time, at: Readings, faults: StoreFaults, loginAt: Readings)
    requires Signup(db, req, crypto, freshId, now, at, faults).1.Issued?
    requires crypto.check(crypto.hash(req.password).value, req.password)
    ensures var reply := Login(Signup(db, req, crypto, freshId, now, at, faults).0, req.email, req.password, crypto, loginAt, None);
      match crypto.mint(freshId, loginAt)
      case Ok(token) => reply == Issued(token)
      case Err(f) => reply == Refused(Raised(f))
  {
  }

  // ---------------------------------------------------------------------------
  // The code as written

  /** Login over the lookup as written. It never issues a token, not even to a registered
      user with the right password: every lookup errs, and every error is "invalid credentials". */
  function LoginAsWritten(db: AuthTable, email: string, password: string, crypto: Crypto, at: Readings, lookup: Option<Fault>): (r: Reply)
    ensures r == Refused(InvalidCredentials)
  {
    LoginFrom(FindUserByEmailAsWritten(db, email, lookup), password, crypto, at)
  }

  /** Signup over the lookup and the insert as written. It never issues a token and never
      writes a row; and it never says "user already exists", even for a registered email. */
  function SignupAsWritten(db: AuthTable, req: SignupRequest, crypto: Crypto, freshId: string, now: Time, at: Readings, faults: StoreFaults): (r: (AuthTable, Reply))
    ensures r.0 == db && r.1.Refused? && r.1.error != UserExists
  {
    if FindUserByEmailAsWritten(db, req.email, faults.lookup).Ok? then (db, Refused(UserExists))
    else
      match crypto.hash(req.password)
      case Err(f) => (db, Refused(Raised(f)))
      case Ok(verifier) =>
        var (db', created) := CreateUserAsWritten(db, NewUser(req, freshId, verifier), now, faults.create);
        if created.Err? then (db', Refused(Raised(created.error)))
        else
          match crypto.mint(freshId, at)
          case Err(f) => (db', Refused(Raised(f)))
          case Ok(token) => (db', Issued(token))
  }
}

=== FILE: base.dfy ===
/** Shared vocabulary: optional values, results, opaque errors and instants. */
module Base {

  datatype Option<T> = None | Some(value: T)

  datatype Result<T, E> = Ok(value: T) | Err(error: E)

  /** A Go `error` produced by a library or by the database, known only by its text. */
  datatype Fault = Fault(message: string)

  /** A failed INSERT into a table with a serial id: `drawn` tells whether the statement had
      already taken the sequence's next value (a constraint violation) or never ran (the
      connection failed). PostgreSQL does not give a drawn value back. */
  datatype InsertFault = InsertFault(fault: Fault, drawn: bool)

  /** How a `for rows.Next()` loop ends: every row delivered, or an error after `delivered`
      rows. The repositories never consult `rows.Err()`, so the second ends the loop as
      quietly as the first. */
  datatype Iteration = Drained | BrokeAfter(delivered: nat)

  /** An instant, in whole seconds since the Unix epoch. */
  type Time = int

  /** Go's zero `time.Time` (0001-01-01 UTC), the value a struct field keeps when no query fills it. */
  const ZeroTime: Time := -62135596800

  /** PostgreSQL's error once a bigint id sequence has handed out its last value. */
  const ErrSequenceExhausted: Fault := Fault("nextval: reached maximum value of sequence")

  function Min(a: int, b: int): int { if a <= b then a else b }

  const Int64Min: int := -0x8000_0000_0000_0000
  const Int64Max: int := 0x7FFF_FFFF_FFFF_FFFF

  /** Go's `int64`. */
  type int64 = n: int | Int64Min <= n <= Int64Max
}

=== FILE: http.dfy ===
/** HTTP responses as the handlers build them: a status code and a JSON body. */
module Http {
  import opened Models

  const StatusOK: int := 200
  const StatusCreated: int := 201
  const StatusBadRequest: int := 400
  const StatusUnauthorized: int := 401
  const StatusNotFound: int := 404
  const StatusInternalServerError: int := 500

  /** The JSON bodies that occur: `{"error": m}`, `{"token": t}`, or a serialised user. */
  datatype Body = ErrorBody(message: string) | TokenBody(token: string) | UserBody(user: DomainUser)

  datatype Response = Response(status: int, body: Body)

  function Unauthorized(message: string): Response {
    Response(StatusUnauthorized, ErrorBody(message))
  }
}

=== FILE: jwt_middleware.dfy ===
/** The request gate of pkg/middlewares/jwt_middleware.go: it decides, from the
    `Authorization` header and the JWT library's verdict on the token, whether a
    request is stopped with a 401 or forwarded, and which `user_id` it carries. */
module JwtMiddleware {
  import opened Base
  import opened Models
  import opened Http

  const MissingHeader: string := "Missing authorization header"
  const InvalidHeader: string := "Invalid authorization header"
  const InvalidToken: string := "Invalid or expired token"

  /** A claim value as JSON decoding leaves it in `jwt.MapClaims`. */
  datatype Claim = Text(text: string) | Number(number: int) | OtherClaim

  type Claims = map<string, Claim>

  /** What `jwt.Parse` hands back: an error, or a token with its validity bit and claims.
      The signature check, the algorithm and the time checks are inside this oracle. */
  datatype Parsed = ParseFailed(reason: Fault) | Parsed(valid: bool, claims: Claims)

  /** The claims `GenerateJWT` (services/auth-service/internal/utils/jwt.go) signs:
      `exp` from one clock reading plus 24 hours, `iat` from a second reading. */
  function MintedClaims(userId: string, t1: Time, t2: Time): (c: Claims)
    ensures c.Keys == {"user_id", "exp", "iat"}
    ensures c["user_id"] == Text(userId)
    ensures c["exp"] == Number(t1 + 86400) && c["iat"] == Number(t2)
    ensures t1 <= t2 ==> c["exp"].number - c["iat"].number <= 86400
  {
    map["user_id" := Text(userId), "exp" := Number(t1 + 86400), "iat" := Number(t2)]
  }

  // ---------------------------------------------------------------------------
  // strings.Split(s, " ") and strings.ToLower

  function SpaceCount(s: string): nat
  {
    if |s| == 0 then 0 else (if s[0] == ' ' then 1 else 0) + SpaceCount(s[1..])
  }

  /** `strings.Join(parts, " ")`. */
  function Join(parts: seq<string>): string
    requires |parts| >= 1
    decreases |parts|
  {
    if |parts| == 1 then parts[0] else parts[0] + " " + Join(parts[1..])
  }

  predicate SpaceFree(parts: seq<string>)
  {
    forall i :: 0 <= i < |parts| ==> ' ' !in parts[i]
  }

  /** `strings.Split(s, " ")`: the pieces between consecutive spaces, one more piece
      than there are spaces, so "" gives [""] and a double space gives an empty piece. */
  function Split(s: string): (parts: seq<string>)
    ensures |parts| == SpaceCount(s) + 1
    ensures SpaceFree(parts)
    ensures Join(parts) == s
    decreases |s|
  {
    if |s| == 0 then [""]
    else
      var rest := Split(s[1..]);
      if s[0] == ' ' then
        var parts := [""] + rest;
        assert parts[1..] == rest;
        parts
      else
        var parts := [[s[0]] + rest[0]] + rest[1..];
        assert |rest| > 1 ==> Join(rest) == rest[0] + " " + Join(rest[1..]);
        assert |parts| > 1 ==> parts[1..] == rest[1..];
        parts
  }

  /** Split is the only way to cut a string into space-free pieces joined by single
      spaces: splitting a join of such pieces gives the pieces back. */
  lemma {:induction false} SplitJoin(parts: seq<string>)
    requires |parts| >= 1
    requires SpaceFree(parts)
    ensures Split(Join(parts)) == parts
    decreases |Join(parts)|
  {
    var p := parts[0];
    if |p| == 0 {
      if |parts| == 1 {
        assert Join(parts) == "";
      } else {
        var rest := parts[1..];
        assert SpaceFree(rest) by {
          forall i | 0 <= i < |rest| ensures ' ' !in rest[i] { assert rest[i] == parts[i + 1]; }
        }
        SplitJoin(rest);
        var s := Join(parts);
        assert s == " " + Join(rest);
        assert s[1..] == Join(rest);
        assert Split(s) == [""] + rest;
      }
    } else {
      var tail := [p[1..]] + parts[1..];
      assert SpaceFree(tail) by {
        forall i | 0 <= i < |tail| ensures ' ' !in tail[i] {
          if i == 0 {
            assert forall c :: c in p[1..] ==> c in p;
          } else {
            assert tail[i] == parts[i];
          }
        }
      }
      SplitJoin(tail);
      var s := Join(parts);
      assert p[0] != ' ' by { assert p[0] in p; }
      JoinHead(parts, tail);
      assert s[1..] == Join(tail);
      assert tail[1..] == parts[1..];
      assert Split(s) == [[p[0]] + p[1..]] + parts[1..];
      assert [p[0]] + p[1..] == p;
      assert [p] + parts[1..] == parts;
    }
  }

  /** Dropping the first character of the first piece drops the first character of the join. */
  lemma JoinHead(parts: seq<string>, tail: seq<string>)
    requires |parts| >= 1 && |parts[0]| >= 1
    requires tail == [parts[0][1..]] + parts[1..]
    ensures |Join(parts)| >= 1 && Join(parts)[0] == parts[0][0]
    ensures Join(parts)[1..] == Join(tail)
  {
    if |parts| > 1 {
      assert tail[1..] == parts[1..];
    }
  }

  /** A single space between two space-free strings splits into exactly those two. */
  lemma SplitTwo(a: string, b: string)
    requires ' ' !in a && ' ' !in b
    ensures Split(a + " " + b) == [a, b]
  {
    assert Join([a, b]) == a + " " + b by { assert [a, b][1..] == [b]; }
    SplitJoin([a, b]);
  }

  /** Lower-casing of one character. Go's `strings.ToLower` is Unicode-aware; lowering
      only ASCII letters gives the same verdict on the comparison with "bearer", because
      the non-ASCII characters Go lowers to an ASCII letter, the Kelvin sign (to 'k') and
      the dotted capital I (to 'i'), lower to letters that "bearer" does not contain. */
  function Lower(c: char): char
  {
    if 'A' <= c <= 'Z' then (c as int + 32) as char else c
  }

  function ToLower(s: string): (r: string)
    ensures |r| == |s|
    ensures forall i :: 0 <= i < |s| ==> r[i] == Lower(s[i])
  {
    seq(|s|, i requires 0 <= i < |s| => Lower(s[i]))
  }

  /** The scheme test: the first part, lower-cased, is "bearer". */
  predicate IsBearer(scheme: string)
  {
    ToLower(scheme) == "bearer"
  }

  lemma BearerHasNoSpace(scheme: string)
    requires IsBearer(scheme)
    ensures ' ' !in scheme
  {
    forall i | 0 <= i < |scheme| ensures scheme[i] != ' ' {
      assert Lower(scheme[i]) == "bearer"[i];
    }
  }

  // ---------------------------------------------------------------------------
  // The gate

  /** The header checks: a non-empty header of the form `<scheme> <token>`, with exactly
      one space and a bearer scheme, yields the token; anything else a 401. */
  function ExtractToken(header: string): (r: Result<string, Response>)
    ensures header == "" <==> r == Err(Unauthorized(MissingHeader))
    ensures header != "" && SpaceCount(header) != 1 ==> r == Err(Unauthorized(InvalidHeader))
    ensures r.Err? ==> r == Err(Unauthorized(MissingHeader)) || r == Err(Unauthorized(InvalidHeader))
    ensures r.Ok? ==> ' ' !in r.value && exists scheme :: IsBearer(scheme) && header == scheme + " " + r.value
  {
    if header == "" then
      Err(Unauthorized(MissingHeader))
    else
      var parts := Split(header);
      if |parts| != 2 || !IsBearer(parts[0]) then
        Err(Unauthorized(InvalidHeader))
      else
        assert Join(parts) == parts[0] + " " + parts[1] by { assert parts[1..] == [parts[1]]; }
        Ok(parts[1])
  }

  /** Converse of the header checks: every `<bearer scheme> <space-free token>` header
      passes them and yields exactly the token, the empty token included. */
  lemma ExtractTokenAccepts(scheme: string, token: string)
    requires IsBearer(scheme) && ' ' !in token
    ensures ExtractToken(scheme + " " + token) == Ok(token)
  {
    BearerHasNoSpace(scheme);
    SplitTwo(scheme, token);
  }

  /** The `user_id` the gate attaches: present only when the claim exists and is a string. */
  function UserIdClaim(claims: Claims): (r: Option<string>)
    ensures r.Some? <==> "user_id" in claims && claims["user_id"].Text?
    ensures r.Some? ==> claims["user_id"] == Text(r.value)
  {
    if "user_id" in claims && claims["user_id"].Text? then Some(claims["user_id"].text) else None
  }

  /** The gate's verdict: stop with a response, or forward with the attached `user_id` (if any). */
  datatype Decision = Halt(response: Response) | Forward(userId: Option<string>)

  /** The middleware's decision on a request whose `Authorization` header is `header`
      (Fiber returns "" for an absent header); `validate` is `jwt.Parse` with the secret. */
  function Decide(header: string, validate: string -> Parsed): (d: Decision)
    ensures d.Halt? ==> d.response.status == StatusUnauthorized
    ensures ExtractToken(header).Err? ==> d == Halt(ExtractToken(header).error)
    ensures d.Forward? <==>
      ExtractToken(header).Ok? && validate(ExtractToken(header).value).Parsed?
      && validate(ExtractToken(header).value).valid
    ensures d.Forward? ==> d.userId == UserIdClaim(validate(ExtractToken(header).value).claims)
    ensures ExtractToken(header).Ok? && d.Halt? ==> d.response == Unauthorized(InvalidToken)
  {
    match ExtractToken(header)
    case Err(response) => Halt(response)
    case Ok(token) =>
      match validate(token)
      case ParseFailed(_) => Halt(Unauthorized(InvalidToken))
      case Parsed(valid, claims) =>
        if !valid then Halt(Unauthorized(InvalidToken)) else Forward(UserIdClaim(claims))
  }

  /** The middleware in a chain: a halted request never reaches `next`; a forwarded one
      is answered by `next`, given the attached `user_id` (Fiber's `Locals`). */
  function Serve(header: string, validate: string -> Parsed, next: Option<string> -> Response): (r: Response)
    ensures Decide(header, validate).Halt? ==> r == Decide(header, validate).response
    ensures Decide(header, validate).Forward? ==> r == next(Decide(header, validate).userId)
  {
    match Decide(header, validate)
    case Halt(response) => response
    case Forward(userId) => next(userId)
  }

  // ---------------------------------------------------------------------------
  // Properties of the gate

  /** An empty header is refused before the token is looked at: the verdict is the same
      whatever the validator, and no handler runs. */
  lemma EmptyHeaderHalts(v: string -> Parsed, next: Option<string> -> Response)
    ensures Decide("", v) == Halt(Unauthorized(MissingHeader))
    ensures Serve("", v, next) == Unauthorized(MissingHeader)
  {
  }

  lemma {:induction false} SpaceCountConcat(a: string, b: string)
    ensures SpaceCount(a + b) == SpaceCount(a) + SpaceCount(b)
    decreases |a|
  {
    if |a| > 0 {
      assert (a + b)[1..] == a[1..] + b;
      SpaceCountConcat(a[1..], b);
    } else {
      assert a + b == b;
    }
  }

  /** A double space yields three parts or more, so the header is refused as invalid,
      whatever the scheme and the token. */
  lemma DoubleSpaceHalts(scheme: string, token: string, v: string -> Parsed)
    ensures Decide(scheme + "  " + token, v) == Halt(Unauthorized(InvalidHeader))
  {
    SpaceCountConcat(scheme, "  ");
    SpaceCountConcat(scheme + "  ", token);
    assert SpaceCount("  ") == 2 by { assert "  "[1..] == " "; assert " "[1..] == ""; }
  }

  /** The scheme comparison ignores case. */
  lemma SchemeIsCaseInsensitive()
    ensures IsBearer("Bearer") && IsBearer("BEARER") && IsBearer("bEaReR")
    ensures !IsBearer("Basic") && !IsBearer("Bearer:")
  {
    assert ToLower("Basic")[0] == 'b';
    assert |ToLower("Bearer:")| == 7;
  }

  /** A header with any other scheme is refused as invalid, whatever the token. */
  lemma OtherSchemeHalts(scheme: string, token: string, v: string -> Parsed)
    requires ' ' !in scheme && ' ' !in token && !IsBearer(scheme)
    ensures Decide(scheme + " " + token, v) == Halt(Unauthorized(InvalidHeader))
  {
    SplitTwo(scheme, token);
  }

  /** "Bearer " with nothing after it passes the header checks: the empty string is
      what reaches the validator. */
  lemma EmptyTokenReachesValidator()
    ensures ExtractToken("Bearer ") == Ok("")
  {
    assert IsBearer("Bearer");
    ExtractTokenAccepts("Bearer", "");
    assert "Bearer" + " " + "" == "Bearer ";
  }

  /** The validator is consulted on `parts[1]` and nothing else: two validators that agree
      on that token give the same verdict. */
  lemma DecisionDependsOnlyOnToken(header: string, v1: string -> Parsed, v2: string -> Parsed)
    requires ExtractToken(header).Ok?
    requires v1(ExtractToken(header).value) == v2(ExtractToken(header).value)
    ensures Decide(header, v1) == Decide(header, v2)
  {
  }

  /** Every request whose token validates is forwarded, with or without a `user_id`;
      the attached id is the string claim itself. */
  lemma ValidTokenForwards(scheme: string, token: string, v: string -> Parsed, next: Option<string> -> Response)
    requires IsBearer(scheme) && ' ' !in token
    requires v(token).Parsed? && v(token).valid
    ensures Decide(scheme + " " + token, v) == Forward(UserIdClaim(v(token).claims))
    ensures Serve(scheme + " " + token, v, next) == next(UserIdClaim(v(token).claims))
  {
    ExtractTokenAccepts(scheme, token);
  }

  /** A parse error or an invalid token stops the request with the token message. */
  lemma RejectedTokenHalts(scheme: string, token: string, v: string -> Parsed)
    requires IsBearer(scheme) && ' ' !in token
    requires v(token).ParseFailed? || !v(token).valid
    ensures Decide(scheme + " " + token, v) == Halt(Unauthorized(InvalidToken))
  {
    ExtractTokenAccepts(scheme, token);
  }

  /** A token carrying the claims `GenerateJWT` signs, once validated, forwards its user id. */
  lemma MintedTokenForwardsUserId(token: string, userId: string, t1: Time, t2: Time, v: string -> Parsed)
    requires ' ' !in token
    requires v(token) == Parsed(true, MintedClaims(userId, t1, t2))
    ensures Decide("Bearer " + token, v) == Forward(Some(userId))
  {
    assert IsBearer("Bearer");
    ExtractTokenAccepts("Bearer", token);
    assert "Bearer" + " " + token == "Bearer " + token;
  }
}

=== FILE: models.dfy ===
/** The two user records of the system. They are deliberately distinct types:
    the auth service identifies users by strings, the user service by int64. */
module Models {
  import opened Base

  /** `models.User` (pkg/models/user.go), the auth service's record. */
  datatype AuthUser = AuthUser(
    id: string,
    name: string,
    email: string,
    password: string,   // the bcrypt verifier
    roleId: string,
    isActive: bool,
    createdAt: Time,
    updatedAt: Time,
    deletedAt: Time)

  /** `domain.User` (services/user-service/internal/domain/user.go), the user service's record. */
  datatype DomainUser = DomainUser(
    id: int64,
    name: string,
    email: string,
    password: string,
    roleId: int64,
    createdAt: Time,
    updatedAt: Time,
    deletedAt: Time)

  /** `domain.Role`. Its declaration is not part of this model; the fields are the
      columns the role repository reads and writes. */
  datatype Role = Role(id: int64, name: string, createdAt: Time, updatedAt: Time)
}

=== FILE: role_repo.dfy ===
/** The roles table (services/user-service/internal/repository/role_repo.go). Unlike users,
    roles are deleted for good: no statement here filters on a deletion mark. Rows are
    kept in ascending id order; `nextId` is the id sequence's next value. */
module RoleRepository {
  import opened Base
  import opened Models

  datatype RoleTable = RoleTable(rows: seq<Role>, nextId: nat)

  ghost predicate Ascending(rows: seq<Role>)
  {
    forall i, j :: 0 <= i < j < |rows| ==> rows[i].id < rows[j].id
  }

  /** Ids strictly ascending and all below the sequence's next value. */
  ghost predicate Valid(t: RoleTable)
  {
    && 1 <= t.nextId
    && (forall i :: 0 <= i < |t.rows| ==> t.rows[i].id < t.nextId)
    && Ascending(t.rows)
  }

  const ErrRoleNotFound: Fault := Fault("role not found")

  /** The role with this id, if the table has one (the first, in table order). */
  function Find(rows: seq<Role>, id: int64): (r: Option<Role>)
    ensures r.Some? ==> r.value in rows && r.value.id == id
    ensures r.None? ==> forall role :: role in rows ==> role.id != id
    decreases |rows|
  {
    if |rows| == 0 then None
    else if rows[0].id == id then Some(rows[0])
    else
      var r := Find(rows[1..], id);
      assert forall role :: role in rows ==> role == rows[0] || role in rows[1..];
      r
  }

  /** `sub` is `rows` with some elements left out and the rest in their order. */
  predicate Subsequence(sub: seq<Role>, rows: seq<Role>)
    decreases |rows|
  {
    if |sub| == 0 then true
    else if |rows| == 0 then false
    else if sub[0] == rows[0] then Subsequence(sub[1..], rows[1..])
    else Subsequence(sub, rows[1..])
  }

  /** The table without the rows carrying this id, the others in their order. */
  function Without(rows: seq<Role>, id: int64): (r: seq<Role>)
    ensures forall role :: role in r <==> role in rows && role.id != id
    ensures |r| <= |rows|
    decreases |rows|
  {
    if |rows| == 0 then []
    else
      var rest := Without(rows[1..], id);
      assert forall role :: role in rows <==> role == rows[0] || role in rows[1..];
      if rows[0].id == id then rest else [rows[0]] + rest
  }

  /** Removing rows keeps the others in their order. */
  lemma {:induction false} WithoutKeepsOrder(rows: seq<Role>, id: int64)
    ensures Subsequence(Without(rows, id), rows)
    decreases |rows|
  {
    if |rows| > 0 {
      WithoutKeepsOrder(rows[1..], id);
      var rest := Without(rows[1..], id);
      if rows[0].id == id && |rest| > 0 {
        assert rest[0] in rest;
      } else if rows[0].id != id {
        assert ([rows[0]] + rest)[1..] == rest;
      }
    }
  }

  /** A role below every role of an ascending table may be put in front of it. */
  lemma PrependAscending(head: Role, rest: seq<Role>)
    requires Ascending(rest)
    requires forall role :: role in rest ==> head.id < role.id
    ensures Ascending([head] + rest)
  {
    var r := [head] + rest;
    forall i, j | 0 <= i < j < |r| ensures r[i].id < r[j].id {
      assert r[j] == rest[j - 1] && r[j] in rest;
      if i > 0 {
        assert r[i] == rest[i - 1];
      }
    }
  }

  lemma TailAscending(rows: seq<Role>)
    requires |rows| > 0 && Ascending(rows)
    ensures Ascending(rows[1..])
    ensures forall role :: role in rows[1..] ==> rows[0].id < role.id
  {
    var tail := rows[1..];
    forall role | role in tail ensures rows[0].id < role.id {
      var k :| 0 <= k < |tail| && tail[k] == role;
      assert tail[k] == rows[k + 1];
    }
  }

  /** Removing rows keeps the rest in ascending id order. */
  lemma {:induction false} WithoutAscending(rows: seq<Role>, id: int64)
    ensures Ascending(rows) ==> Ascending(Without(rows, id))
    decreases |rows|
  {
    if |rows| > 0 && Ascending(rows) {
      TailAscending(rows);
      WithoutAscending(rows[1..], id);
      if rows[0].id != id {
        PrependAscending(rows[0], Without(rows[1..], id));
      }
    }
  }

  /** `Create`: inserts the name with `created_at = updated_at = now` (one clock reading) and
      the sequence's id; returns the caller's role with id and timestamps filled in. A failed
      insert adds no row, but one that had drawn its id leaves the sequence advanced. */
  function Create(t: RoleTable, role: Role, now: Time, fault: Option<InsertFault>): (r: (RoleTable, Result<Role, Fault>))
    ensures r.1.Err? ==> r.0.rows == t.rows
    ensures r.1.Ok? <==> fault.None? && t.nextId <= Int64Max
    ensures r.0.nextId == t.nextId || r.0.nextId == t.nextId + 1
    ensures r.0.nextId == t.nextId + 1 <==> t.nextId <= Int64Max && (fault.None? || fault.value.drawn)
    ensures fault.Some? && !fault.value.drawn ==> r == (t, Err(fault.value.fault))
    ensures fault.Some? && t.nextId <= Int64Max ==> r.1 == Err(fault.value.fault)
    ensures fault.None? && t.nextId > Int64Max ==> r == (t, Err(ErrSequenceExhausted))
    ensures r.1.Ok? ==>
      && r.1.value.id == t.nextId && r.1.value.name == role.name
      && r.1.value.createdAt == now && r.1.value.updatedAt == now
      && r.0.rows == t.rows + [r.1.value]
    ensures Valid(t) ==> Valid(r.0)
    ensures Valid(t) && r.1.Ok? ==> forall prior :: prior in t.rows ==> prior.id != r.1.value.id
  {
    if fault.Some? && !fault.value.drawn then (t, Err(fault.value.fault))
    else if t.nextId > Int64Max then (t, Err(ErrSequenceExhausted))
    else if fault.Some? then (t.(nextId := t.nextId + 1), Err(fault.value.fault))
    else
      var created := Role(t.nextId, role.name, now, now);
      (RoleTable(t.rows + [created], t.nextId + 1), Ok(created))
  }

  /** `GetByID`: the role with this id, `Ok(None)` when there is none. */
  function GetByID(t: RoleTable, id: int64, fault: Option<Fault>): (r: Result<Option<Role>, Fault>)
    ensures fault.Some? <==> r.Err?
    ensures fault.Some? ==> r == Err(fault.value)
    ensures r == Ok(None) <==> fault.None? && forall role :: role in t.rows ==> role.id != id
    ensures r.Ok? && r.value.Some? ==> r.value.value in t.rows && r.value.value.id == id
  {
    if fault.Some? then Err(fault.value) else Ok(Find(t.rows, id))
  }

  /** `List`: the roles in ascending id order as the rows arrive. An error part-way through
      ends the loop and is never reported: the roles read so far come back as the whole list. */
  function List(t: RoleTable, fault: Option<Fault>, iter: Iteration): (r: Result<seq<Role>, Fault>)
    ensures fault.Some? <==> r.Err?
    ensures fault.Some? ==> r == Err(fault.value)
    ensures r.Ok? ==> r.value <= t.rows
    ensures r.Ok? && iter.Drained? ==> r.value == t.rows
    ensures r.Ok? && iter.BrokeAfter? ==> |r.value| == Min(iter.delivered, |t.rows|)
    ensures r.Ok? && Valid(t) ==> Ascending(r.value)
  {
    if fault.Some? then Err(fault.value)
    else
      match iter
      case Drained => Ok(t.rows)
      case BrokeAfter(k) => Ok(t.rows[..Min(k, |t.rows|)])
  }

  /** `Update`: sets name and `updated_at` of the role with `role.ID`; id and `created_at`
      stay. No such role: "role not found". */
  function Update(t: RoleTable, role: Role, now: Time, fault: Option<Fault>): (r: (RoleTable, Result<(), Fault>))
    ensures r.1.Err? ==> r.0 == t
    ensures fault.Some? ==> r.1 == Err(fault.value)
    ensures r.1.Ok? <==> fault.None? && exists prior :: prior in t.rows && prior.id == role.id
    ensures fault.None? && r.1.Err? ==> r.1 == Err(ErrRoleNotFound)
    ensures r.0.nextId == t.nextId && |r.0.rows| == |t.rows|
    ensures forall i :: 0 <= i < |t.rows| ==>
      && r.0.rows[i].id == t.rows[i].id && r.0.rows[i].createdAt == t.rows[i].createdAt
      && (t.rows[i].id != role.id ==> r.0.rows[i] == t.rows[i])
      && (r.1.Ok? && t.rows[i].id == role.id ==> r.0.rows[i].name == role.name && r.0.rows[i].updatedAt == now)
    ensures Valid(t) ==> Valid(r.0)
  {
    if fault.Some? then (t, Err(fault.value))
    else if Find(t.rows, role.id).None? then (t, Err(ErrRoleNotFound))
    else
      var rows := seq(|t.rows|, i requires 0 <= i < |t.rows| =>
        if t.rows[i].id == role.id then t.rows[i].(name := role.name, updatedAt := now) else t.rows[i]);
      (t.(rows := rows), Ok(()))
  }

  /** `Delete`: removes the role with this id. No such role: "role not found". */
  function Delete(t: RoleTable, id: int64, fault: Option<Fault>): (r: (RoleTable, Result<(), Fault>))
    ensures r.1.Err? ==> r.0 == t
    ensures fault.Some? ==> r.1 == Err(fault.value)
    ensures r.1.Ok? <==> fault.None? && exists prior :: prior in t.rows && prior.id == id
    ensures fault.None? && r.1.Err? ==> r.1 == Err(ErrRoleNotFound)
    ensures r.0.nextId == t.nextId
    ensures r.1.Ok? ==> r.0.rows == Without(t.rows, id)
    ensures r.1.Ok? ==> forall role :: role in r.0.rows <==> role in t.rows && role.id != id
    ensures r.1.Ok? ==> Subsequence(r.0.rows, t.rows)
    ensures r.1.Ok? ==> |r.0.rows| < |t.rows|
    ensures Valid(t) ==> Valid(r.0)
  {
    if fault.Some? then (t, Err(fault.value))
    else if Find(t.rows, id).None? then (t, Err(ErrRoleNotFound))
    else
      var rows := Without(t.rows, id);
      WithoutAscending(t.rows, id);
      WithoutKeepsOrder(t.rows, id);
      WithoutShrinks(t.rows, id);
      (t.(rows := rows), Ok(()))
  }

  lemma {:induction false} WithoutShrinks(rows: seq<Role>, id: int64)
    requires exists prior :: prior in rows && prior.id == id
    ensures |Without(rows, id)| < |rows|
    decreases |rows|
  {
    if rows[0].id != id {
      var prior :| prior in rows && prior.id == id;
      assert prior in rows[1..] by { assert prior == rows[0] || prior in rows[1..]; }
      WithoutShrinks(rows[1..], id);
    }
  }

  /** A deleted role is gone: GetByID finds nothing, and deleting it again fails. */
  lemma DeleteThenGet(t: RoleTable, id: int64)
    requires Delete(t, id, None).1.Ok?
    ensures GetByID(Delete(t, id, None).0, id, None) == Ok(None)
    ensures Delete(Delete(t, id, None).0, id, None).1 == Err(ErrRoleNotFound)
  {
  }

  /** A created role is found again by its new id. */
  lemma CreateThenGet(t: RoleTable, role: Role, now: Time)
    requires Valid(t) && t.nextId <= Int64Max
    ensures var (t', res) := Create(t, role, now, None);
      res.Ok? && GetByID(t', res.value.id, None) == Ok(Some(res.value))
  {
    var (t', res) := Create(t, role, now, None);
    var got := GetByID(t', res.value.id, None);
    assert res.value in t'.rows;
    assert got.value.Some?;
    var found := got.value.value;
    var i :| 0 <= i < |t'.rows| && t'.rows[i] == found;
    if i < |t.rows| {
      assert t'.rows[i] == t.rows[i];
    }
  }
}

=== FILE: user_handler.dfy ===
/** GET /api/v1/users/profile
    (services/user-service/internal/api/http/handlers/user_handler.go), and the route that
    puts the JWT gate in front of it (services/user-service/internal/api/http/router.go).

    As written the handler calls `GetByID` on the service, which has no such method, and
    clears `user.password`, a field that does not exist (it is `Password`); the model
    reads these as the evident `GetProfile` and `Password`. */
module ProfileHandler {
  import opened Base
  import opened Models
  import opened Http
  import JwtMiddleware
  import UserRepository
  import UserService

  const Unauthenticated: string := "Unauthenticated"
  const UserNotFound: string := "User not found"

  /** The user with the password cleared and every other field kept. */
  function WithoutPassword(u: DomainUser): (v: DomainUser)
    ensures v.password == ""
    ensures v.(password := u.password) == u
  {
    u.(password := "")
  }

  /** The handler: `local` is the `user_id` the gate attached, if any. A service error is a
      500 whose body still says "Unauthenticated". */
  function GetProfile(local: Option<string>, t: UserRepository.UserTable, fault: Option<Fault>): (r: Response)
    ensures local.None? ==> r == Unauthorized(Unauthenticated)
    ensures r.status == StatusUnauthorized <==> local.None?
    ensures r.status == StatusOK <==>
      && local.Some? && UserService.ParseInt64(local.value).Some? && fault.None?
      && exists row :: row in t.rows && UserRepository.Live(row) && row.id == UserService.ParseInt64(local.value).value
    ensures r.status in {StatusOK, StatusUnauthorized, StatusNotFound, StatusInternalServerError}
    ensures r.status == StatusInternalServerError <==>
      local.Some? && (UserService.ParseInt64(local.value).None? || fault.Some?)
    ensures r.status == StatusInternalServerError ==> r.body == ErrorBody(Unauthenticated)
    ensures r.status == StatusNotFound <==>
      && local.Some? && UserService.ParseInt64(local.value).Some? && fault.None?
      && forall row :: row in t.rows && UserRepository.Live(row) ==> row.id != UserService.ParseInt64(local.value).value
    ensures r.status == StatusNotFound ==> r.body == ErrorBody(UserNotFound)
    ensures r.status == StatusOK ==>
      && local.Some? && UserService.ParseInt64(local.value).Some? && r.body.UserBody?
      && r.body.user.password == ""
      && exists row :: row in t.rows && UserRepository.Live(row)
           && row.id == UserService.ParseInt64(local.value).value
           && r.body.user == WithoutPassword(UserRepository.Read(row))
  {
    match local
    case None => Unauthorized(Unauthenticated)
    case Some(userId) =>
      match UserService.GetProfile(t, userId, fault)
      case Err(_) => Response(StatusInternalServerError, ErrorBody(Unauthenticated))
      case Ok(None) => Response(StatusNotFound, ErrorBody(UserNotFound))
      case Ok(Some(user)) => Response(StatusOK, UserBody(WithoutPassword(user)))
  }

  /** The route: the gate, then the handler with what the gate attached. */
  function Route(header: string, validate: string -> JwtMiddleware.Parsed, t: UserRepository.UserTable, fault: Option<Fault>): (r: Response)
    ensures JwtMiddleware.Decide(header, validate).Halt? ==> r == JwtMiddleware.Decide(header, validate).response
    ensures JwtMiddleware.Decide(header, validate).Forward? ==>
      r == GetProfile(JwtMiddleware.Decide(header, validate).userId, t, fault)
  {
    JwtMiddleware.Serve(header, validate, (local: Option<string>) => GetProfile(local, t, fault))
  }

  /** A profile is served only to a request the gate forwarded with a `user_id`, and it is
      the live row under that id, password cleared. */
  lemma ProfileOnlyBehindGate(header: string, validate: string -> JwtMiddleware.Parsed, t: UserRepository.UserTable, fault: Option<Fault>)
    requires Route(header, validate, t, fault).status == StatusOK
    ensures JwtMiddleware.Decide(header, validate).Forward?
    ensures JwtMiddleware.Decide(header, validate).userId.Some?
    ensures Route(header, validate, t, fault).body.UserBody?
    ensures Route(header, validate, t, fault).body.user.password == ""
  {
  }

  /** A token that validates but carries no string `user_id` passes the gate and is then
      refused by the handler: 401 "Unauthenticated". */
  lemma TokenWithoutUserIdIsUnauthenticated(token: string, validate: string -> JwtMiddleware.Parsed, t: UserRepository.UserTable, fault: Option<Fault>)
    requires ' ' !in token
    requires validate(token).Parsed? && validate(token).valid
    requires "user_id" !in validate(token).claims || !validate(token).claims["user_id"].Text?
    ensures Route("Bearer " + token, validate, t, fault) == Unauthorized(Unauthenticated)
  {
    assert JwtMiddleware.IsBearer("Bearer");
    JwtMiddleware.ExtractTokenAccepts("Bearer", token);
    assert "Bearer" + " " + token == "Bearer " + token;
  }

  /** A token the auth service minted names its user by a UUID, which the profile path cannot
      read as an int64: such a request, however valid, ends in a 500. */
  lemma AuthIssuedTokenFails(token: string, userId: string, t1: Time, t2: Time, validate: string -> JwtMiddleware.Parsed, t: UserRepository.UserTable, fault: Option<Fault>)
    requires ' ' !in token && UserService.UuidShaped(userId)
    requires validate(token) == JwtMiddleware.Parsed(true, JwtMiddleware.MintedClaims(userId, t1, t2))
    ensures Route("Bearer " + token, validate, t, fault) == Response(StatusInternalServerError, ErrorBody(Unauthenticated))
  {
    JwtMiddleware.MintedTokenForwardsUserId(token, userId, t1, t2, validate);
    UserService.UuidNeverParses(userId);
  }

  /** With a decimal `user_id` naming a live row, the route answers 200 with that row. */
  lemma DecimalIdIsServed(token: string, id: int64, row: UserRepository.UserRow, validate: string -> JwtMiddleware.Parsed, t: UserRepository.UserTable)
    requires ' ' !in token && UserRepository.Valid(t)
    requires validate(token).Parsed? && validate(token).valid
    requires "user_id" in validate(token).claims && validate(token).claims["user_id"] == JwtMiddleware.Text(UserService.FormatInt(id))
    requires row in t.rows && UserRepository.Live(row) && row.id == id
    ensures Route("Bearer " + token, validate, t, None) == Response(StatusOK, UserBody(WithoutPassword(UserRepository.Read(row))))
  {
    assert JwtMiddleware.IsBearer("Bearer");
    JwtMiddleware.ExtractTokenAccepts("Bearer", token);
    assert "Bearer" + " " + token == "Bearer " + token;
    UserService.ParseFormatRoundTrip(id);
    var r := GetProfile(Some(UserService.FormatInt(id)), t, None);
    assert r.status == StatusOK by {
      assert !(forall other :: other in t.rows && UserRepository.Live(other) ==> other.id != id);
    }
    var other :| other in t.rows && UserRepository.Live(other) && other.id == id
      && r.body.user == WithoutPassword(UserRepository.Read(other));
    UserRepository.SameIdSameRow(t, other, row);
  }
}

=== FILE: user_repo.dfy ===
/** The user service's users table (services/user-service/internal/repository/user_repo.go).

    Rows are kept in ascending id order, as a serial id column hands them out;
    `nextId` is the sequence's next value. A row with `deletedAt` set is
    soft-deleted: every statement of the repository filters on
    `deleted_at IS NULL`, so such a row is invisible to all of them. A store
    failure is an explicit `fault` argument. */
module UserRepository {
  import opened Base
  import opened Models

  datatype UserRow = UserRow(
    id: int64,
    name: string,
    email: string,
    password: string,
    roleId: int64,
    createdAt: Time,
    updatedAt: Time,
    deletedAt: Option<Time>)

  datatype UserTable = UserTable(rows: seq<UserRow>, nextId: nat)

  /** Ids strictly ascending and all below the sequence's next value. */
  ghost predicate Valid(t: UserTable)
  {
    && 1 <= t.nextId
    && (forall i :: 0 <= i < |t.rows| ==> t.rows[i].id < t.nextId)
    && (forall i, j :: 0 <= i < j < |t.rows| ==> t.rows[i].id < t.rows[j].id)
  }

  predicate Live(row: UserRow)
  {
    row.deletedAt.None?
  }

  /** A row as the SELECTs read it: seven columns; `DeletedAt` keeps Go's zero time. */
  function Read(row: UserRow): (u: DomainUser)
    ensures u.id == row.id && u.deletedAt == ZeroTime
  {
    DomainUser(row.id, row.name, row.email, row.password, row.roleId, row.createdAt, row.updatedAt, ZeroTime)
  }

  function ReadAll(rows: seq<UserRow>): (us: seq<DomainUser>)
    ensures |us| == |rows|
    ensures forall i :: 0 <= i < |rows| ==> us[i] == Read(rows[i])
  {
    seq(|rows|, i requires 0 <= i < |rows| => Read(rows[i]))
  }

  const ErrUserNotFound: Fault := Fault("User not found")
  const ErrNegativeLimit: Fault := Fault("LIMIT must not be negative")
  const ErrNegativeOffset: Fault := Fault("OFFSET must not be negative")

  /** The first non-deleted row, in id order, that `matches` accepts. */
  function FirstLive(rows: seq<UserRow>, matches: UserRow -> bool): (r: Option<UserRow>)
    ensures r.Some? ==> r.value in rows && Live(r.value) && matches(r.value)
    ensures r.None? ==> forall row :: row in rows && Live(row) ==> !matches(row)
    decreases |rows|
  {
    if |rows| == 0 then None
    else if Live(rows[0]) && matches(rows[0]) then Some(rows[0])
    else
      var r := FirstLive(rows[1..], matches);
      assert forall row :: row in rows ==> row == rows[0] || row in rows[1..];
      r
  }

  /** The non-deleted rows, in table order. */
  function Visible(rows: seq<UserRow>): (vis: seq<UserRow>)
    ensures forall row :: row in vis <==> row in rows && Live(row)
    ensures |vis| <= |rows|
    decreases |rows|
  {
    if |rows| == 0 then []
    else
      var rest := Visible(rows[1..]);
      assert forall row :: row in rows <==> row == rows[0] || row in rows[1..];
      if Live(rows[0]) then [rows[0]] + rest else rest
  }

  ghost predicate Ascending(rows: seq<UserRow>)
  {
    forall i, j :: 0 <= i < j < |rows| ==> rows[i].id < rows[j].id
  }

  /** A row below every row of an ascending sequence may be put in front of it. */
  lemma PrependAscending(head: UserRow, rest: seq<UserRow>)
    requires Ascending(rest)
    requires forall row :: row in rest ==> head.id < row.id
    ensures Ascending([head] + rest)
  {
    var r := [head] + rest;
    forall i, j | 0 <= i < j < |r| ensures r[i].id < r[j].id {
      assert r[j] == rest[j - 1] && r[j] in rest;
      if i > 0 {
        assert r[i] == rest[i - 1];
      }
    }
  }

  lemma TailAscending(rows: seq<UserRow>)
    requires |rows| > 0 && Ascending(rows)
    ensures Ascending(rows[1..])
    ensures forall row :: row in rows[1..] ==> rows[0].id < row.id
  {
    var tail := rows[1..];
    forall row | row in tail ensures rows[0].id < row.id {
      var k :| 0 <= k < |tail| && tail[k] == row;
      assert tail[k] == rows[k + 1];
    }
  }

  /** Dropping deleted rows keeps the rest in ascending id order. */
  lemma {:induction false} VisibleAscending(rows: seq<UserRow>)
    ensures Ascending(rows) ==> Ascending(Visible(rows))
    decreases |rows|
  {
    if |rows| > 0 && Ascending(rows) {
      TailAscending(rows);
      VisibleAscending(rows[1..]);
      if Live(rows[0]) {
        PrependAscending(rows[0], Visible(rows[1..]));
      }
    }
  }

  /** In a valid table at most one row carries a given id. */
  lemma SameIdSameRow(t: UserTable, a: UserRow, b: UserRow)
    requires Valid(t) && a in t.rows && b in t.rows && a.id == b.id
    ensures a == b
  {
    var i :| 0 <= i < |t.rows| && t.rows[i] == a;
    var j :| 0 <= j < |t.rows| && t.rows[j] == b;
    assert t.rows[i].id == t.rows[j].id;
  }

  // ---------------------------------------------------------------------------
  // The repository's statements

  /** `Create`: inserts name, email, password and role with `created_at = updated_at = now`
      (one clock reading); the id is the sequence's. Returns the caller's user with id and
      timestamps filled in. A failed insert adds no row, but one that had drawn its id
      leaves the sequence advanced, and that id is never handed out. */
  function Create(t: UserTable, user: DomainUser, now: Time, fault: Option<InsertFault>): (r: (UserTable, Result<DomainUser, Fault>))
    ensures r.1.Err? ==> r.0.rows == t.rows
    ensures r.1.Ok? <==> fault.None? && t.nextId <= Int64Max
    ensures r.0.nextId == t.nextId || r.0.nextId == t.nextId + 1
    ensures r.0.nextId == t.nextId + 1 <==> t.nextId <= Int64Max && (fault.None? || fault.value.drawn)
    ensures fault.Some? && !fault.value.drawn ==> r == (t, Err(fault.value.fault))
    ensures fault.Some? && t.nextId <= Int64Max ==> r.1 == Err(fault.value.fault)
    ensures fault.None? && t.nextId > Int64Max ==> r == (t, Err(ErrSequenceExhausted))
    ensures r.1.Ok? ==>
      var u := r.1.value;
      && u.id == t.nextId && u.createdAt == now && u.updatedAt == now
      && u.name == user.name && u.email == user.email && u.password == user.password
      && u.roleId == user.roleId && u.deletedAt == user.deletedAt
      && r.0.rows == t.rows + [UserRow(u.id, u.name, u.email, u.password, u.roleId, now, now, None)]
    ensures Valid(t) ==> Valid(r.0)
    ensures Valid(t) && r.1.Ok? ==> forall row :: row in t.rows ==> row.id != r.1.value.id
  {
    if fault.Some? && !fault.value.drawn then (t, Err(fault.value.fault))
    else if t.nextId > Int64Max then (t, Err(ErrSequenceExhausted))
    else if fault.Some? then (t.(nextId := t.nextId + 1), Err(fault.value.fault))
    else
      var id: int64 := t.nextId;
      var row := UserRow(id, user.name, user.email, user.password, user.roleId, now, now, None);
      (UserTable(t.rows + [row], t.nextId + 1), Ok(user.(id := id, createdAt := now, updatedAt := now)))
  }

  /** Ids can have gaps: after an insert that failed once it had drawn its id, the next
      user gets the id after that one, and no row ever carries the lost id. */
  lemma FailedCreateSkipsId(t: UserTable, a: DomainUser, b: DomainUser, now: Time, f: Fault)
    requires Valid(t) && t.nextId + 1 <= Int64Max
    ensures var (t1, res1) := Create(t, a, now, Some(InsertFault(f, true)));
      var (t2, res2) := Create(t1, b, now, None);
      && res1.Err? && res2.Ok? && res2.value.id == t.nextId + 1
      && forall row :: row in t2.rows ==> row.id != t.nextId
  {
  }

  /** `GetByEmail`: a non-deleted user with this email, `Ok(None)` when there is none. */
  function GetByEmail(t: UserTable, email: string, fault: Option<Fault>): (r: Result<Option<DomainUser>, Fault>)
    ensures fault.Some? <==> r.Err?
    ensures fault.Some? ==> r == Err(fault.value)
    ensures r == Ok(None) <==> fault.None? && forall row :: row in t.rows && Live(row) ==> row.email != email
    ensures r.Ok? && r.value.Some? ==>
      exists row :: row in t.rows && Live(row) && row.email == email && r.value.value == Read(row)
  {
    if fault.Some? then Err(fault.value)
    else
      match FirstLive(t.rows, (row: UserRow) => row.email == email)
      case None => Ok(None)
      case Some(row) => Ok(Some(Read(row)))
  }

  /** `GetByID`: the non-deleted user with this id, `Ok(None)` when there is none. */
  function GetByID(t: UserTable, id: int64, fault: Option<Fault>): (r: Result<Option<DomainUser>, Fault>)
    ensures fault.Some? <==> r.Err?
    ensures fault.Some? ==> r == Err(fault.value)
    ensures r == Ok(None) <==> fault.None? && forall row :: row in t.rows && Live(row) ==> row.id != id
    ensures r.Ok? && r.value.Some? ==>
      exists row :: row in t.rows && Live(row) && row.id == id && r.value.value == Read(row)
  {
    if fault.Some? then Err(fault.value)
    else
      match FirstLive(t.rows, (row: UserRow) => row.id == id)
      case None => Ok(None)
      case Some(row) => Ok(Some(Read(row)))
  }

  /** The page the query selects: the non-deleted users in table order, skipping `offset`,
      at most `limit`. */
  function Page(t: UserTable, limit: nat, offset: nat): (p: seq<DomainUser>)
    ensures |p| <= limit
    ensures |p| == Min(limit, if offset <= |Visible(t.rows)| then |Visible(t.rows)| - offset else 0)
    ensures forall i :: 0 <= i < |p| ==> p[i] == Read(Visible(t.rows)[offset + i])
  {
    var vis := Visible(t.rows);
    var start := Min(offset, |vis|);
    ReadAll(vis[start..Min(start + limit, |vis|)])
  }

  /** `List`: PostgreSQL refuses a negative LIMIT or OFFSET; otherwise the page's rows arrive
      in order, and an error part-way through ends the loop and is never reported, so the
      caller gets the rows read so far as if they were the whole page. */
  function List(t: UserTable, limit: int, offset: int, fault: Option<Fault>, iter: Iteration): (r: Result<seq<DomainUser>, Fault>)
    ensures r.Ok? <==> fault.None? && limit >= 0 && offset >= 0
    ensures fault.Some? ==> r == Err(fault.value)
    ensures r.Ok? ==> r.value <= Page(t, limit, offset)
    ensures r.Ok? && iter.Drained? ==> r.value == Page(t, limit, offset)
    ensures r.Ok? && iter.BrokeAfter? ==> |r.value| == Min(iter.delivered, |Page(t, limit, offset)|)
  {
    if fault.Some? then Err(fault.value)
    else if limit < 0 then Err(ErrNegativeLimit)
    else if offset < 0 then Err(ErrNegativeOffset)
    else
      var page := Page(t, limit, offset);
      match iter
      case Drained => Ok(page)
      case BrokeAfter(k) => Ok(page[..Min(k, |page|)])
  }

  /** An iteration error is indistinguishable from a shorter table: the call succeeds with
      fewer users than a complete read of the same page returns. */
  lemma BrokenListLooksComplete(t: UserTable, limit: nat, offset: nat, k: nat)
    requires k < |Page(t, limit, offset)|
    ensures List(t, limit, offset, None, BrokeAfter(k)).Ok?
    ensures |List(t, limit, offset, None, BrokeAfter(k)).value| == k < |List(t, limit, offset, None, Drained).value|
  {
  }

  /** Every listed user is a non-deleted row, read as the SELECT reads it. */
  lemma ListShowsOnlyLive(t: UserTable, limit: int, offset: int, iter: Iteration, u: DomainUser)
    requires List(t, limit, offset, None, iter).Ok? && u in List(t, limit, offset, None, iter).value
    ensures exists row :: row in t.rows && Live(row) && u == Read(row)
  {
    var us := List(t, limit, offset, None, iter).value;
    var i :| 0 <= i < |us| && us[i] == u;
    assert us[i] == Page(t, limit, offset)[i];
    assert Visible(t.rows)[offset + i] in Visible(t.rows);
  }

  /** A page of a valid table is in strictly ascending id order (`ORDER BY id ASC`). */
  lemma ListAscending(t: UserTable, limit: int, offset: int, iter: Iteration)
    requires Valid(t) && List(t, limit, offset, None, iter).Ok?
    ensures var us := List(t, limit, offset, None, iter).value;
      forall i, j :: 0 <= i < j < |us| ==> us[i].id < us[j].id
  {
    VisibleAscending(t.rows);
    var us := List(t, limit, offset, None, iter).value;
    var page := Page(t, limit, offset);
    var vis := Visible(t.rows);
    forall i, j | 0 <= i < j < |us| ensures us[i].id < us[j].id {
      assert us[i] == page[i] && us[j] == page[j];
      assert page[i] == Read(vis[offset + i]) && page[j] == Read(vis[offset + j]);
    }
  }

  /** The row the UPDATE matches: not deleted, with this id. */
  predicate Targets(row: UserRow, id: int64)
  {
    Live(row) && row.id == id
  }

  /** `Update`: rewrites name, email, password, role and `updated_at` of the non-deleted row
      with `user.ID`; id, `created_at` and `deleted_at` stay. No such row: "User not found". */
  function Update(t: UserTable, user: DomainUser, now: Time, fault: Option<Fault>): (r: (UserTable, Result<(), Fault>))
    ensures r.1.Err? ==> r.0 == t
    ensures fault.Some? ==> r.1 == Err(fault.value)
    ensures r.1.Ok? <==> fault.None? && exists row :: row in t.rows && Targets(row, user.id)
    ensures fault.None? && r.1.Err? ==> r.1 == Err(ErrUserNotFound)
    ensures r.0.nextId == t.nextId && |r.0.rows| == |t.rows|
    ensures forall i :: 0 <= i < |t.rows| && !Targets(t.rows[i], user.id) ==> r.0.rows[i] == t.rows[i]
    ensures r.1.Ok? ==> forall i :: 0 <= i < |t.rows| && Targets(t.rows[i], user.id) ==>
      r.0.rows[i] == UserRow(t.rows[i].id, user.name, user.email, user.password, user.roleId, t.rows[i].createdAt, now, None)
    ensures Valid(t) ==> Valid(r.0)
  {
    if fault.Some? then (t, Err(fault.value))
    else if FirstLive(t.rows, (row: UserRow) => row.id == user.id).None? then (t, Err(ErrUserNotFound))
    else
      var rows := seq(|t.rows|, i requires 0 <= i < |t.rows| =>
        if Targets(t.rows[i], user.id)
        then t.rows[i].(name := user.name, email := user.email, password := user.password, roleId := user.roleId, updatedAt := now)
        else t.rows[i]);
      (t.(rows := rows), Ok(()))
  }

  /** `Delete` (soft): stamps `deleted_at` on the non-deleted row with this id; nothing else
      changes. No such row: "User not found". */
  function Delete(t: UserTable, id: int64, now: Time, fault: Option<Fault>): (r: (UserTable, Result<(), Fault>))
    ensures r.1.Err? ==> r.0 == t
    ensures fault.Some? ==> r.1 == Err(fault.value)
    ensures r.1.Ok? <==> fault.None? && exists row :: row in t.rows && Targets(row, id)
    ensures fault.None? && r.1.Err? ==> r.1 == Err(ErrUserNotFound)
    ensures r.0.nextId == t.nextId && |r.0.rows| == |t.rows|
    ensures forall i :: 0 <= i < |t.rows| && !Targets(t.rows[i], id) ==> r.0.rows[i] == t.rows[i]
    ensures r.1.Ok? ==> forall i :: 0 <= i < |t.rows| && Targets(t.rows[i], id) ==>
      r.0.rows[i] == t.rows[i].(deletedAt := Some(now))
    ensures Valid(t) ==> Valid(r.0)
  {
    if fault.Some? then (t, Err(fault.value))
    else if FirstLive(t.rows, (row: UserRow) => row.id == id).None? then (t, Err(ErrUserNotFound))
    else
      var rows := seq(|t.rows|, i requires 0 <= i < |t.rows| =>
        if Targets(t.rows[i], id) then t.rows[i].(deletedAt := Some(now)) else t.rows[i]);
      (t.(rows := rows), Ok(()))
  }

  // ---------------------------------------------------------------------------
  // Properties across statements

  /** A created user is found again by its new id, as the store reads it back. */
  lemma CreateThenGet(t: UserTable, user: DomainUser, now: Time)
    requires Valid(t) && t.nextId <= Int64Max
    ensures var (t', res) := Create(t, user, now, None);
      res.Ok? && GetByID(t', res.value.id, None) == Ok(Some(res.value.(deletedAt := ZeroTime)))
  {
    var (t', res) := Create(t, user, now, None);
    var u := res.value;
    var row := UserRow(u.id, u.name, u.email, u.password, u.roleId, now, now, None);
    assert row in t'.rows;
    var got := GetByID(t', u.id, None);
    assert got.Ok? && got.value.Some? by {
      assert !(forall r :: r in t'.rows && Live(r) ==> r.id != u.id);
    }
    var other :| other in t'.rows && Live(other) && other.id == u.id && got.value.value == Read(other);
    SameIdSameRow(t', other, row);
  }

  /** After a successful Update the row reads back with the new fields, the old
      `created_at`, and `updated_at = now`. */
  lemma UpdateThenGet(t: UserTable, user: DomainUser, now: Time)
    requires Valid(t)
    requires Update(t, user, now, None).1.Ok?
    ensures exists prev :: (
      && prev in t.rows && Targets(prev, user.id)
      && GetByID(Update(t, user, now, None).0, user.id, None)
         == Ok(Some(DomainUser(user.id, user.name, user.email, user.password, user.roleId, prev.createdAt, now, ZeroTime))))
  {
    var t' := Update(t, user, now, None).0;
    var i :| 0 <= i < |t.rows| && Targets(t.rows[i], user.id);
    var prev := t.rows[i];
    var updated := t'.rows[i];
    assert updated in t'.rows && Targets(updated, user.id);
    var got := GetByID(t', user.id, None);
    assert got.Ok? && got.value.Some? by {
      assert !(forall r :: r in t'.rows && Live(r) ==> r.id != user.id);
    }
    var other :| other in t'.rows && Live(other) && other.id == user.id && got.value.value == Read(other);
    SameIdSameRow(t', other, updated);
  }

  /** Update of a missing or soft-deleted id fails with "User not found" and changes nothing. */
  lemma UpdateMissingFails(t: UserTable, user: DomainUser, now: Time)
    requires GetByID(t, user.id, None) == Ok(None)
    ensures Update(t, user, now, None) == (t, Err(ErrUserNotFound))
  {
  }

  /** After a successful Delete the id is gone from GetByID and from every page of List,
      and a second Delete of it fails. */
  lemma DeleteHides(t: UserTable, id: int64, now: Time, limit: int, offset: int, iter: Iteration)
    requires Delete(t, id, now, None).1.Ok?
    ensures GetByID(Delete(t, id, now, None).0, id, None) == Ok(None)
    ensures Delete(Delete(t, id, now, None).0, id, now, None) == (Delete(t, id, now, None).0, Err(ErrUserNotFound))
    ensures List(Delete(t, id, now, None).0, limit, offset, None, iter).Ok? ==>
      forall u :: u in List(Delete(t, id, now, None).0, limit, offset, None, iter).value ==> u.id != id
  {
    var t' := Delete(t, id, now, None).0;
    assert forall row :: row in t'.rows && Live(row) ==> row.id != id by {
      forall row | row in t'.rows && Live(row) ensures row.id != id {
        var k :| 0 <= k < |t'.rows| && t'.rows[k] == row;
      }
    }
  }

  /** A soft-deleted row is not found by its email either. */
  lemma DeleteHidesEmail(t: UserTable, id: int64, now: Time, email: string)
    requires Valid(t)
    requires Delete(t, id, now, None).1.Ok?
    ensures GetByEmail(Delete(t, id, now, None).0, email, None).Ok?
    ensures GetByEmail(Delete(t, id, now, None).0, email, None).value.Some? ==>
      GetByEmail(Delete(t, id, now, None).0, email, None).value.value.id != id
  {
    var t' := Delete(t, id, now, None).0;
    var got := GetByEmail(t', email, None);
    if got.value.Some? {
      var row :| row in t'.rows && Live(row) && row.email == email && got.value.value == Read(row);
      var k :| 0 <= k < |t'.rows| && t'.rows[k] == row;
    }
  }
}

=== FILE: user_service.dfy ===
/** The profile service (services/user-service/internal/services/user_service.go): the
    `user_id` string is read as a base-10 int64 and looked up. */
module UserService {
  import opened Base
  import opened Models
  import UserRepository

  // ---------------------------------------------------------------------------
  // strconv.ParseInt(s, 10, 64) and strconv.FormatInt(n, 10)

  predicate IsDigit(c: char) { '0' <= c <= '9' }

  predicate AllDigits(s: string)
  {
    forall i :: 0 <= i < |s| ==> IsDigit(s[i])
  }

  /** The value of a string of decimal digits, most significant first. */
  function DigitsValue(ds: string): nat
    requires AllDigits(ds)
    decreases |ds|
  {
    if |ds| == 0 then 0
    else DigitsValue(ds[..|ds| - 1]) * 10 + (ds[|ds| - 1] as int - '0' as int)
  }

  /** The digits of `s` once an optional leading '+' or '-' is removed. */
  function Unsigned(s: string): string
  {
    if |s| > 0 && (s[0] == '+' || s[0] == '-') then s[1..] else s
  }

  /** The number an optional sign and a run of digits denote. */
  function SignedValue(s: string): int
    requires AllDigits(Unsigned(s))
  {
    if |s| > 0 && s[0] == '-' then -(DigitsValue(Unsigned(s)) as int) else DigitsValue(Unsigned(s))
  }

  /** `strconv.ParseInt(s, 10, 64)`: an optional sign then one or more decimal digits, no
      underscores (they are allowed only with base 0), and a value that fits in an int64.
      `None` stands for Go's syntax and range errors alike. */
  function ParseInt64(s: string): (r: Option<int64>)
    ensures r.Some? ==> |Unsigned(s)| > 0 && AllDigits(Unsigned(s)) && r.value == SignedValue(s)
    ensures (exists i :: 0 <= i < |Unsigned(s)| && !IsDigit(Unsigned(s)[i])) ==> r.None?
    ensures |Unsigned(s)| > 0 && AllDigits(Unsigned(s)) && Int64Min <= SignedValue(s) <= Int64Max ==> r.Some?
  {
    var ds := Unsigned(s);
    if |ds| == 0 || !AllDigits(ds) then None
    else
      var v := SignedValue(s);
      if Int64Min <= v <= Int64Max then Some(v) else None
  }

  /** A leading '+' and leading zeros are accepted, and the value is unchanged by them. */
  lemma PlusAndLeadingZerosAccepted(n: int64)
    requires n >= 0
    ensures ParseInt64("+0" + FormatInt(n)) == Some(n)
  {
    var ds := FormatNat(n as int);
    FormatNatValue(n as int);
    assert FormatInt(n) == ds;
    var s := "+0" + ds;
    assert Unsigned(s) == "0" + ds;
    assert ("0" + ds)[..|"0" + ds| - 1] == "0" + ds[..|ds| - 1];
    LeadingZero(ds);
  }

  /** A zero in front of a digit run does not change its value. */
  lemma {:induction false} LeadingZero(ds: string)
    requires AllDigits(ds)
    ensures AllDigits("0" + ds) && DigitsValue("0" + ds) == DigitsValue(ds)
    decreases |ds|
  {
    var zs := "0" + ds;
    assert AllDigits(zs) by {
      forall i | 0 <= i < |zs| ensures IsDigit(zs[i]) {
        if i > 0 { assert zs[i] == ds[i - 1]; }
      }
    }
    if |ds| > 0 {
      var init := ds[..|ds| - 1];
      assert zs[..|zs| - 1] == "0" + init;
      assert zs[|zs| - 1] == ds[|ds| - 1];
      LeadingZero(init);
    }
  }

  function Digit(d: nat): char
    requires d < 10
  {
    ('0' as int + d) as char
  }

  /** The decimal digits of `n`, without leading zeros. */
  function FormatNat(n: nat): (s: string)
    ensures |s| > 0 && AllDigits(s)
    decreases n
  {
    if n < 10 then [Digit(n)] else FormatNat(n / 10) + [Digit(n % 10)]
  }

  /** `strconv.FormatInt(n, 10)`. */
  function FormatInt(n: int): string
  {
    if n < 0 then "-" + FormatNat(-n) else FormatNat(n)
  }

  lemma {:induction false} FormatNatValue(n: nat)
    ensures DigitsValue(FormatNat(n)) == n
    decreases n
  {
    var s := FormatNat(n);
    if n >= 10 {
      FormatNatValue(n / 10);
      assert s[..|s| - 1] == FormatNat(n / 10);
    }
  }

  /** Every int64 survives `FormatInt` followed by `ParseInt`. */
  lemma ParseFormatRoundTrip(n: int64)
    ensures ParseInt64(FormatInt(n)) == Some(n)
  {
    var s := FormatInt(n);
    if n < 0 {
      var m: nat := -(n as int);
      var ds := FormatNat(m);
      FormatNatValue(m);
      assert s == "-" + ds && s[0] == '-' && s[1..] == ds;
      assert Unsigned(s) == ds;
      assert SignedValue(s) == n;
    } else {
      var ds := FormatNat(n as int);
      FormatNatValue(n as int);
      assert s == ds;
      assert IsDigit(ds[0]);
      assert Unsigned(s) == ds;
      assert SignedValue(s) == n;
    }
  }

  /** A '-' anywhere but first makes the string unparseable. */
  lemma InnerHyphenRejected(s: string, k: nat)
    requires 0 < k < |s| && s[k] == '-'
    ensures ParseInt64(s) == None
  {
    var ds := Unsigned(s);
    if |s| > 0 && (s[0] == '+' || s[0] == '-') {
      assert ds[k - 1] == '-';
    } else {
      assert ds[k] == '-';
    }
  }

  /** The textual form of `uuid.New().String()`: 36 characters, hyphens at 8, 13, 18, 23. */
  predicate UuidShaped(s: string)
  {
    |s| == 36 && s[8] == '-' && s[13] == '-' && s[18] == '-' && s[23] == '-'
  }

  /** No id the auth service issues can be read as an int64. */
  lemma UuidNeverParses(s: string)
    requires UuidShaped(s)
    ensures ParseInt64(s) == None
  {
    InnerHyphenRejected(s, 8);
  }

  // ---------------------------------------------------------------------------
  // The service

  /** `GetProfile`'s errors: the `strconv` error, or the store's, passed through. */
  datatype ProfileError = NotAnInt64(input: string) | StoreFailed(fault: Fault)

  /** `GetProfile`: a non-decimal id fails before the store is asked; otherwise the lookup's
      answer comes back as it is, absence (`nil, nil`) included and the password kept. */
  function GetProfile(t: UserRepository.UserTable, userId: string, fault: Option<Fault>): (r: Result<Option<DomainUser>, ProfileError>)
    ensures ParseInt64(userId).None? ==> r == Err(NotAnInt64(userId))
    ensures ParseInt64(userId).Some? && fault.Some? ==> r == Err(StoreFailed(fault.value))
    ensures ParseInt64(userId).Some? && fault.None? ==> r.Ok?
    ensures r == Ok(None) <==>
      ParseInt64(userId).Some? && fault.None?
      && forall row :: row in t.rows && UserRepository.Live(row) ==> row.id != ParseInt64(userId).value
    ensures r.Ok? && r.value.Some? ==>
      exists row :: row in t.rows && UserRepository.Live(row) && row.id == ParseInt64(userId).value
        && r.value.value == UserRepository.Read(row)
  {
    match ParseInt64(userId)
    case None => Err(NotAnInt64(userId))
    case Some(id) =>
      match UserRepository.GetByID(t, id, fault)
      case Err(f) => Err(StoreFailed(f))
      case Ok(user) => Ok(user)
  }

  /** A decimal id is looked up under its value: `"42"` and `"+042"` name the same user. */
  lemma GetProfileUsesValue(t: UserRepository.UserTable, a: string, b: string, fault: Option<Fault>)
    requires ParseInt64(a).Some? && ParseInt64(a) == ParseInt64(b)
    ensures GetProfile(t, a, fault) == GetProfile(t, b, fault)
  {
  }

  /** `UpdateProfile` is the repository's Update and nothing more. */
  function UpdateProfile(t: UserRepository.UserTable, user: DomainUser, now: Time, fault: Option<Fault>): (r: (UserRepository.UserTable, Result<(), Fault>))
    ensures r == UserRepository.Update(t, user, now, fault)
  {
    UserRepository.Update(t, user, now, fault)
  }
}
